=== FILE: README.md ===
# lotw-monitor core, modelled in Dafny

lotw-monitor polls the ARRL Logbook of The World (LoTW). It downloads the
operator's contacts (QSOs) as ADIF text and keeps a local cache of them.
It announces grid squares that become confirmed for the first time, and it
draws the confirmed squares on a world map. It also classifies Brazilian
contacts by federative unit (state) for the "Worked All Brazil" award.
This project models the parts of that program that compute:

- `Adif` (adif.dfy): the ADIF parser `parse_adif`. The header is cut at the
  first `<eoh>`, in any case. The rest is stripped and split on `<eor>`.
  Each chunk is then scanned field by field with the tag pattern
  `<NAME:LEN[:TYPE]>`. The field-pattern regular expression is written out
  as the functions `TagAt`, `LengthAt` and `Search`. `ParseAdif` is the
  nested loop of the source, proved equal to the specification
  `ParseSpec`.
- `Store` (storage.dfy): the `Storage` class, with its cache of contacts
  keyed by call, date, time and band, its list of known (confirmed) grids
  and its date fields. Its methods are `merge_qsos`, `get_worked_grids`,
  `get_stats` and `get_grid_labels`, together with the helpers `_qso_key`
  and `_extract_grids` and the property getters and setters.
- `Wab` (wab.dfy): the grid-to-state table (`GRID_TO_STATE`), and the
  state lookup by grid and by callsign, including every regional rule of
  the callsign classifier.
- `MapView` (mapview.dfy): the conversion of a grid to its latitude and
  longitude box, and the equirectangular projection. It also models the
  crop extent that `generate` computes before drawing: the hull of the
  confirmed squares, padded by 3 degrees, widened to at least 20 degrees unless it meets the
  edge of the world, projected, truncated and clamped to the image, with the whole map as the
  fallback.
- `Text` (text.dfy) holds the Python string behaviour these rely on:
  `strip` with Python's whitespace set, ASCII `upper`/`lower`, clamping
  slices, `split`, `find`, and the lexicographic order of `<=` on strings.
  `Wrappers` (wrappers.dfy) holds `Option` and `Result`.

Latitudes and longitudes are exact reals. Python's `int()` on a float
truncates toward zero; `MapView.Trunc` writes that out, since Dafny's
`.Floor` differs for negative values.

The callsign classifier compares suffixes with Python's string order. A
range such as `'AAA' <= suf <= 'IZZ'` therefore excludes only the suffixes
that are proper prefixes of its lower bound (`A`, `AA`): `PU1AA` is
classified as RJ, while `PU1B`, which sorts between `AAA` and `IZZ`, is ES.
`Wab.ShortSuffixBelowRange` and `Wab.ShortSuffixCall` state this behaviour
of the source.

The contact key `CALL_QSO_DATE_TIME_ON_BAND` is unique only while no
field contains `_`: `Store.QsoKeyIdentifies` states the uniqueness for such
fields, and `Store.KeyCollision` shows two contacts with different calls
that share a key once a `_` can move between call and date. Such contacts
overwrite each other in the cache, as they do in the source.

## Model

| member | source | states |
|---|---|---|
| Adif.ParseAdif | src/lotw_client.py:60-110 | fails exactly when the lower-cased text has no `<eoh>`; otherwise returns the records of `ParseSpec`, each non-empty, with upper-case tag names and stripped values |
| Adif.ScanChunk | src/lotw_client.py:87-104 | the field loop over one chunk stores, for each tag match in turn, the upper-cased name with the stripped value of the declared length, and resumes the search after that value |
| Adif.TagAt | src/lotw_client.py:75 | a tag match found at position `i` starts at `i` and ends inside the text (what it holds is stated by `TagAtSound`) |
| Adif.TagAtSound | src/lotw_client.py:75 | every match is a well-formed tag `<NAME:DIGITS>` or `<NAME:DIGITS:TYPE>` whose name and decimal length are the ones returned, ending after its `>` |
| Adif.Search | src/lotw_client.py:90 | `field_pattern.search(chunk, pos)`: a result starts at or after `pos` |
| Adif.SearchFound | src/lotw_client.py:90 | the match `Search` returns is a tag at its own start position |
| Adif.SearchLeftmost | src/lotw_client.py:90 | no tag starts between `pos` and the match returned; with no match, no tag starts anywhere after `pos` |
| Adif.TagAtGoodTag | src/lotw_client.py:75 | a well-formed `<NAME:DIGITS>` or `<NAME:DIGITS:TYPE>` is matched with that name, that decimal length and its end after the closing `>` |
| Adif.TagTextScans | src/lotw_client.py:75 | on a well-formed tag, the regex groups end exactly where the name, the digits and the type end |
| Adif.FieldAtCursor | src/lotw_client.py:90-99 | a tag followed by a value of the declared length at the cursor is the next match, and the slice taken is exactly that value |
| Adif.MalformedTagSkipped | src/lotw_client.py:75 | a `<` starts no match, and the search moves past it, when its name is empty or runs into `>` or the end, when no digit follows the `:`, when the digits run to the end or are followed by neither `>` nor `:`, or when a type part has no closing `>` |
| Adif.RepeatedTagLastWins | src/lotw_client.py:101 | two matches of the same tag name (up to case) leave the later value in the record |
| Adif.StoreAllLookup | src/lotw_client.py:94-101 | a key is in the record exactly when some match carries it (or it was there before), and its value is that of the last such match |
| Adif.RecordsWellFormed | src/lotw_client.py:106-107 | every record kept is non-empty, with upper-case keys and stripped values |
| Adif.RecordsOfAppend | src/lotw_client.py:82-107 | the records of concatenated chunk lists are the concatenation of their records (chunks are handled independently) |
| Adif.SplitEor | src/lotw_client.py:80 | splitting on `<eor>` yields at least one chunk, and no chunk holds `<eor>` in any letter case |
| Adif.SplitEorJoin | src/lotw_client.py:80 | there is one chunk more than `<eor>` markers in the text, and the chunks with the markers put back between them give the text again |
| Adif.ParseSpec | src/lotw_client.py:60-107 | fails exactly when the text holds no `<eoh>` in any letter case |
| Adif.HeaderIgnored | src/lotw_client.py:64-71 | whatever precedes the first `<eoh>` does not affect the result |
| Store.QsoKey | src/storage.py:106-108 | the call, date, time and band joined by `_`, with `None` for an absent field |
| Store.QsoKeyParts | src/storage.py:106-108 | splitting the key on `_` gives back call, date, time and band (`None` when absent), for fields without `_` |
| Store.QsoKeyIdentifies | src/storage.py:106-108 | for fields without `_`, two contacts get the same key exactly when they agree on call, date, time and band |
| Store.KeyCollision | src/storage.py:106-108 | a call ending in `_b` with date `d`, and the call without `_b` with date `b_d`, give the same key although the calls differ |
| Store.ExtractGrids | src/storage.py:110-114 | a contact not made via satellite yields no grid |
| Store.ExtractGridsShape | src/storage.py:110-128 | every grid extracted is four characters with no lower-case letter; a contact that is not via satellite yields none |
| Store.VuccPriority | src/storage.py:116-127 | for a satellite contact, with a non-empty `VUCC_GRIDS`, `GRIDSQUARE` is ignored; otherwise the grid square's first four characters are the only grid, if there are four |
| Store.VuccListed | src/storage.py:117-122 | a satellite contact whose `VUCC_GRIDS` is a comma-separated list of squares (four upper-case letters or digits each) yields exactly the squares listed |
| Text.SplitJoin | src/storage.py:119 | splitting on a separator undoes joining with it, for parts that do not contain it |
| Store.SortedList | src/storage.py:87 | `sorted(list(s))`: strictly ascending in Python's string order, with exactly the elements of `s` |
| Store.SortedUnique | src/storage.py:87 | two strictly sorted lists with the same elements are equal, so the sorted list is determined by the set |
| Store.Overwrite | src/storage.py:69-71 | no old key is lost, every contact of the batch has its key present, and the last contact of the batch is stored under its key |
| Store.MergeBatch | src/storage.py:69-82 | the loop over the batch yields the overwritten cache and exactly the grids of its confirmed contacts that were not known |
| Store.OverwriteLookup | src/storage.py:69-71 | after the merge a key maps to the last contact of the batch with that key, or keeps its old contact when the batch has none |
| Store.ConfirmedGridsMember | src/storage.py:76-82 | a grid is collected exactly when some confirmed contact of the batch yields it |
| Store.ConfirmationNotUndone | src/storage.py:69-82 | a confirmed contact later overwritten by an unconfirmed one with the same key still reports its new grids |
| Store.MergeIdempotent | src/storage.py:57-91 | merging the same batch a second time leaves the cache unchanged and reports no new grid |
| Store.AddUnknown | src/storage.py:80-82 | the newly confirmed set grows by the grids not already known |
| Store.CallsAtMostCount | src/storage.py:130-143 | a grid's count of contacts is at least its number of distinct calls |
| Store.CountContact | src/storage.py:137-142 | counting one more contact keeps the statistics equal to the count and the calls of the contacts counted so far |
| Store.SortByTimeCorrect | src/storage.py:156-158 | sorting by (date, time) yields a sorted permutation of the contacts |
| Store.LabelsOfLookup | src/storage.py:160-167 | a grid gets a label exactly when some confirmed contact yields it, and the label is the call of the last such contact in order |
| Store.LastCandidateLatest | src/storage.py:158-167 | in a list sorted by (date, time), the contact that supplies the label is no earlier than any other confirmed contact of that grid |
| Store.ListValues | src/storage.py:156 | the list has one entry per key of the cache, the contact stored under that key, the keys taken in some order without repetition |
| Store.Storage.Fresh | src/storage.py:14-21 | a store without a file starts with no grids, no contacts, no last run and the last contact date 1900-01-01 |
| Store.Storage.Loaded | src/storage.py:22-24 | a loaded store holds the fields read from the file |
| Store.Storage.LastQsoDate | src/storage.py:36-38 | the stored last contact date, or 1900-01-01 when absent |
| Store.Storage.SetLastQsoDate | src/storage.py:40-42 | the last contact date becomes the value and nothing else changes |
| Store.Storage.LastSyncDate | src/storage.py:44-47 | the stored last sync date, or 1900-01-01 when absent |
| Store.Storage.SetLastSyncDate | src/storage.py:49-51 | the last sync date becomes the value and nothing else changes |
| Store.Storage.KnownGrids | src/storage.py:53-55 | the set of the stored known grids (`get_confirmed_grids` at lines 93-94 returns the same set) |
| Store.Storage.MergeQsos | src/storage.py:57-91 | the cache becomes the old cache overwritten by the batch in order; returns, sorted, exactly the grids of confirmed contacts not known before; the known list is replaced by the sorted union only when there are some; the last run is set |
| Store.Storage.GetWorkedGrids | src/storage.py:96-103 | exactly the grids extracted from some cached contact |
| Store.Storage.GetStats | src/storage.py:130-143 | an entry for exactly the grids some cached contact yields, with the number of such contacts and the set of their calls |
| Store.Storage.GetGridLabels | src/storage.py:145-169 | a label for exactly the grids some confirmed cached contact yields, naming the call of a latest such contact by (date, time) |
| Wab.AllStates | src/wab_data.py:195-200 | 27 distinct federative units |
| Wab.GetStateFromGrid | src/wab_data.py:62-66 | no state for an input shorter than four characters; a state only for a key of the table |
| Wab.GridToState | src/wab_data.py:5-60 | every key of the table is a four-character locator (two letters, two digits) and every value is one of the 27 units |
| Wab.LaterEntryKept | src/wab_data.py:5-60 | `FJ92`, listed twice, keeps its later state RR |
| Wab.DuplicateGridResolved | src/wab_data.py:62-66 | looking up `FJ92` yields RR |
| Wab.TableKeyFound | src/wab_data.py:62-66 | every key of the table is found by the lookup, with its own state |
| Wab.GridStateKnown | src/wab_data.py:62-66 | a state found by grid is one of the 27 units |
| Wab.GridIgnoresCase | src/wab_data.py:65 | the grid lookup ignores letter case |
| Wab.ParseCall | src/wab_data.py:86-90 | a call parses exactly when it starts with two upper-case letters, a digit and an upper-case letter; the parts are then well formed |
| Wab.ParseCallSound | src/wab_data.py:86-90 | a parsed call starts with the two-letter prefix, the digit and the maximal letter run of the suffix |
| Wab.ParseCallRoundTrip | src/wab_data.py:86-90 | prefix, digit and suffix written out and followed by a non-letter parse back to themselves |
| Wab.RegionState | src/wab_data.py:93-193 | a state is found exactly for the regions 0 to 9 |
| Wab.RegionStateKnown | src/wab_data.py:93-193 | the state found for a region 0 to 9 is one of the 27 units |
| Wab.GetStateFromCall | src/wab_data.py:68-193 | a call has a state exactly when it starts with a Brazilian prefix and parses; the state is one of the 27 units |
| Wab.CallIgnoresCase | src/wab_data.py:74 | the callsign lookup ignores letter case |
| Wab.Pu1ByFirstLetter | src/wab_data.py:99-101 | for PU1 and a three-letter suffix, A to I gives ES and the rest RJ |
| Wab.Pu5ByFirstLetter | src/wab_data.py:125-132 | for PU5 and a three-letter suffix, A to L gives SC and the rest PR |
| Wab.ShortSuffixBelowRange | src/wab_data.py:96-102 | for PU1 the two-letter suffix `AA` sorts below `AAA` and gives RJ, while the one-letter suffix `B` lies in the range and gives ES |
| Wab.ShortSuffixCall | src/wab_data.py:68-102 | the call `pu1aa` is classified RJ |
| Wab.SingleStateRegions | src/wab_data.py:117-122 | region 3 is always RS and region 4 always MG |
| Wab.IslandRegion | src/wab_data.py:188-191 | region 0 is ES for a suffix starting with T and PE otherwise |
| Wab.PuDefaults | src/wab_data.py:143-186 | for a suffix of any length, PU7 with a first letter outside its listed letters defaults to PE; PU8 and PU9 with a suffix starting with Z give AM and MT |
| MapView.GridToLatLon | src/map_plot.py:34-56 | a converted box is never inverted, and a box other than the zero box is 1 degree high and 2 degrees wide |
| MapView.GridToLatLonCases | src/map_plot.py:34-56 | a token shorter than four characters gives the zero box; the conversion fails exactly when the third or fourth character is not a digit; otherwise the box is 2 degrees wide and 1 degree high |
| MapView.GridToLatLonFirstFour | src/map_plot.py:38-54 | only the first four characters of the upper-cased, stripped token matter |
| MapView.ZeroBoxIffShort | src/map_plot.py:39-40 | a converted box is the zero box exactly when the token is short |
| MapView.LocatorBox | src/map_plot.py:43-54 | for a locator (A-R, A-R, digit, digit) the box has the field-and-square corners and lies within the world |
| MapView.SquareAtInverse | src/map_plot.py:43-54 | every point of a locator's box maps back to that locator's four characters |
| MapView.ProjectX | src/map_plot.py:58-64 | a longitude of the world projects to an x between 0 and the image width |
| MapView.ProjectY | src/map_plot.py:58-64 | a latitude of the world projects to a y between 0 and the image height |
| MapView.ProjectCorners | src/map_plot.py:58-64 | the world's corners project to the image's corners |
| MapView.ProjectMonotone | src/map_plot.py:58-64 | x grows with longitude and y falls with latitude |
| MapView.ProjectInImage | src/map_plot.py:58-64 | points of the world project inside the image |
| MapView.ProjectInverse | src/map_plot.py:58-64 | the projection is invertible on a non-empty image |
| MapView.Trunc | src/map_plot.py:122-123 | `int()` of a float truncates toward zero |
| MapView.HullEncloses | src/map_plot.py:81-94 | the extent found encloses every counted square, and each side is attained by a square or keeps its start value |
| MapView.HullInWorld | src/map_plot.py:81-94 | the extent of squares within the world lies within the world |
| MapView.Pad | src/map_plot.py:100-105 | the padded sides are clamped to the world; an extent within the world stays within it and is enclosed by its padding |
| MapView.PadAround | src/map_plot.py:100-105 | a square within the world that the extent encloses is still enclosed after padding |
| MapView.PadEncloses | src/map_plot.py:100-105 | padding keeps the extent enclosing the squares and within the world |
| MapView.Zoom | src/map_plot.py:107-115 | widening never moves a side that is within the world out of it |
| MapView.ZoomEncloses | src/map_plot.py:107-115 | widening keeps the extent enclosing and within the world, and each side spans at least 20 degrees unless it reaches the edge |
| MapView.CropOf | src/map_plot.py:117-128 | a crop taken lies within the image and has positive width and height |
| MapView.Widen | src/map_plot.py:90-93 | each side of the extent moves out to the square's side exactly when the square reaches further, giving `Extend` of the extent by the square |
| MapView.ScanStep | src/map_plot.py:86-94 | one grid more extends the extent by its box unless it is the zero box, and sets the found flag |
| MapView.ScanGrids | src/map_plot.py:81-94 | completes exactly when no grid fails to convert; then the found flag says whether some square counted, and the extent is the hull of the counted squares |
| MapView.CropHull | src/map_plot.py:100-128 | the crop is that of the padded, widened extent, within the image |
| MapView.ViewOf | src/map_plot.py:80-136 | no image exactly when some grid fails to convert; a crop taken lies within the image with positive width and height |
| MapView.ComputeView | src/map_plot.py:80-136 | no image exactly when some grid fails to convert; otherwise the crop of the hull, or the whole world when nothing counted or the crop has no area |
| MapView.CropCovers | src/map_plot.py:117-128 | a box inside the extent projects inside the crop, up to the truncation of its right and bottom edges |
| MapView.ZoomedHullEncloses | src/map_plot.py:81-115 | the padded, widened hull encloses every counted square lying within the world |
| MapView.CropShowsEverySquare | src/map_plot.py:80-134 | every counted square lying within the world projects inside the crop taken, up to truncation |
| MapView.OffWorldSquareCut | src/map_plot.py:100-115 | a counted square outside the world is not enclosed by the padded, widened hull, whose sides are clamped to the world |
| MapView.OffWorldSquare | src/map_plot.py:43-54 | `ZZ00` counts (it is not the zero box) but its box lies outside the world |
| MapView.FullWorldWhenNothingCounts | src/map_plot.py:136 | with no grid giving a non-zero box, the whole world is shown |

## Left out

- I/O: fetching the ADIF from LoTW (`fetch_adif`, `get_qsos`), reading and writing the JSON state file (`save`, the file read in `_load`), and downloading, cropping, resizing and drawing the map image. `Store.Storage.Loaded` takes the decoded fields as parameters, and a file that fails to load is a store with every field absent.
- The clock: `merge_qsos` stores `datetime.now()`; the model takes the timestamp as the parameter `now`.
- Logging, and the check in `fetch_adif` that the response contains `<eoh>` (src/lotw_client.py lines 53-56), which lies outside `parse_adif`.
- `generate` returning `b""` when the map file is missing, and the thumbnail size limits: these depend on the file system and the image.
- Store.Storage.GetGridLabels: when two confirmed contacts of a grid share the latest (date, time), the source picks the one later in dictionary order. The model does not model dictionary order, so it promises only a latest contact.
- MapView.CropShowsEverySquare: covers only the counted squares within the world. A square whose field letters lie past R (`ZZ00`, say) has a box outside the world, and the clamped crop cuts it off, as `MapView.OffWorldSquareCut` and `MapView.OffWorldSquare` state.
- Store.ExtractGrids: its own contract states only the non-satellite case; the shape of every extracted grid, the priority of `VUCC_GRIDS` and the squares a list yields are stated by `Store.ExtractGridsShape`, `Store.VuccPriority` and `Store.VuccListed`.
- Store.ListValues: dictionary iteration order is not modelled; the list takes the keys in some order, each once.
- Floating point: coordinates and projections are exact reals, so rounding of `w / 360.0` and the like is not modelled.
- Letter case: `upper` and `lower` act on ASCII letters only; the non-ASCII case mappings of Python's `str.upper` are not modelled.
- Digits: `int()` also accepts non-ASCII decimal digits, and the regular expression `\d` matches them too; the model accepts ASCII digits only.
- `None` inputs: `get_state_from_grid(None)` and a `None` call are not modelled; inputs are strings.
- src/bot.py, src/tle.py, src/config.py and main.py (the Telegram bot, satellite TLE handling, configuration and start-up) are not part of this model.

=== FILE: adif.dfy ===
/** The ADIF record parser of the LoTW client (`LoTWClient.parse_adif`).

    The report text starts with a header closed by `<eoh>` (any case); the
    rest is a run of records closed by `<eor>` (any case), each a run of
    length-prefixed fields `<TAG:LEN>value` or `<TAG:LEN:TYPE>value`. A
    field's value is the next LEN characters after the tag's `>`, whatever
    they contain, so a `<` or `>` inside a value is never read as a tag. */
module Adif {
  import opened Text
  import opened Wrappers

  /** One parsed record: upper-cased tag name to whitespace-stripped value. */
  type Record = map<string, string>

  datatype ParseError = MissingEndOfHeader

  /** One match of the field pattern `<([^:>]+):(\d+)(?::[^>]*)?>`: where it
      starts, its first group (the raw tag name), its second group read as
      a number, and where the match ends (the first character of the value). */
  datatype FieldMatch = FieldMatch(start: nat, name: string, length: nat, valueStart: nat)

  predicate IsStop(c: char) { c == ':' || c == '>' }

  /** The first index at or after `j` holding `:` or `>`, or `|s|`. */
  function StopAt(s: string, j: nat): (k: nat)
    requires j <= |s|
    ensures j <= k <= |s|
    ensures k == |s| || IsStop(s[k])
    decreases |s| - j
  {
    if j == |s| || IsStop(s[j]) then j else StopAt(s, j + 1)
  }

  /** The end of the run of ASCII digits that starts at `j`. */
  function DigitsEnd(s: string, j: nat): (k: nat)
    requires j <= |s|
    ensures j <= k <= |s|
    ensures k == |s| || !IsDigit(s[k])
    decreases |s| - j
  {
    if j == |s| || !IsDigit(s[j]) then j else DigitsEnd(s, j + 1)
  }

  /** The first index at or after `j` holding `>`, or `|s|`. */
  function CloseAt(s: string, j: nat): (k: nat)
    requires j <= |s|
    ensures j <= k <= |s|
    ensures k == |s| || s[k] == '>'
    decreases |s| - j
  {
    if j == |s| || s[j] == '>' then j else CloseAt(s, j + 1)
  }

  /** Python's `int()` of a run of ASCII digits. */
  function DecimalValue(d: string): nat
    requires AllDigits(d)
  {
    if d == [] then 0 else 10 * DecimalValue(d[..|d| - 1]) + (d[|d| - 1] as int - '0' as int)
  }

  predicate AllDigits(d: string)
  {
    forall t :: 0 <= t < |d| ==> IsDigit(d[t])
  }

  /** The field pattern anchored at index `i`. `[^:>]+` runs to the first
      `:` or `>`, which must be a `:` after at least one character; `\d+`
      takes the whole digit run; then either `>` follows at once, or a `:`
      and the optional type runs to the first `>` after it. Backtracking
      cannot produce any other match. */
  function TagAt(s: string, i: nat): (r: Option<FieldMatch>)
    ensures r.Some? ==> r.value.start == i && i < r.value.valueStart <= |s|
  {
    if i >= |s| || s[i] != '<' then None
    else
      var j := StopAt(s, i + 1);
      if j == i + 1 || j == |s| || s[j] != ':' then None
      else LengthAt(s, i, j)
  }

  /** The rest of the pattern once `<` at `i` and the group-ending `:` at
      `j` are found: the digit run, then `>` or `:TYPE>`. */
  function LengthAt(s: string, i: nat, j: nat): (r: Option<FieldMatch>)
    requires i < j < |s|
    ensures r.Some? ==> r.value.start == i && j + 2 < r.value.valueStart <= |s|
  {
    var k := DigitsEnd(s, j + 1);
    DigitsEndDigits(s, j + 1);
    if k == j + 1 || k == |s| then None
    else
      var close := if s[k] == '>' then k else if s[k] == ':' then CloseAt(s, k + 1) else |s|;
      if close == |s| then None
      else Some(FieldMatch(i, s[i + 1..j], DecimalValue(s[j + 1..k]), close + 1))
  }

  /** `field_pattern.search(s, pos)`: the leftmost match starting at or
      after `pos`. */
  function Search(s: string, pos: nat): (r: Option<FieldMatch>)
    ensures r.Some? ==> pos <= r.value.start < r.value.valueStart <= |s|
    decreases |s| - pos
  {
    if pos >= |s| then None
    else if TagAt(s, pos).Some? then TagAt(s, pos)
    else Search(s, pos + 1)
  }

  /** What the search returns is a match at the place it reports. */
  lemma {:induction false} SearchFound(s: string, pos: nat)
    requires Search(s, pos).Some?
    ensures TagAt(s, Search(s, pos).value.start) == Search(s, pos)
    decreases |s| - pos
  {
    if TagAt(s, pos).None? {
      SearchFound(s, pos + 1);
    }
  }

  /** The search finds the leftmost match: no match starts between the
      cursor and the one it returns, and none at all when it returns none. */
  lemma {:induction false} SearchLeftmost(s: string, pos: nat)
    ensures Search(s, pos).Some? ==> forall k :: pos <= k < Search(s, pos).value.start ==> TagAt(s, k).None?
    ensures Search(s, pos).None? ==> forall k :: pos <= k ==> TagAt(s, k).None?
    decreases |s| - pos
  {
    if pos < |s| && TagAt(s, pos).None? {
      SearchLeftmost(s, pos + 1);
    }
  }

  /** The value of a match: the next `length` characters after its `>`
      (fewer when the chunk ends first), whitespace-stripped. */
  function ValueOf(chunk: string, m: FieldMatch): string
  {
    Strip(Slice(chunk, m.valueStart, m.valueStart + m.length))
  }

  /** The successive matches the field loop finds from cursor `pos`: each
      search resumes where the previous value ends. */
  function Matches(chunk: string, pos: nat): seq<FieldMatch>
    decreases |chunk| - pos
  {
    var found := Search(chunk, pos);
    if found.None? then []
    else [found.value] + Matches(chunk, found.value.valueStart + found.value.length)
  }

  /** `fields[tag_name] = value.strip()` for one match. */
  function StoreField(fields: Record, chunk: string, m: FieldMatch): Record
  {
    fields[Upper(m.name) := ValueOf(chunk, m)]
  }

  /** The matches stored one after another, later ones overwriting. */
  function StoreAll(fields: Record, chunk: string, ms: seq<FieldMatch>): Record
    decreases |ms|
  {
    if ms == [] then fields else StoreAll(StoreField(fields, chunk, ms[0]), chunk, ms[1..])
  }

  /** The fields of one chunk. */
  function FieldsOf(chunk: string): Record
  {
    StoreAll(map[], chunk, Matches(chunk, 0))
  }

  /** What one `<eor>`-separated chunk contributes: nothing when it is blank
      or holds no field. */
  function RecordOf(chunk: string): Option<Record>
  {
    var c := Strip(chunk);
    if c == [] then None
    else
      var fields := FieldsOf(c);
      if fields == map[] then None else Some(fields)
  }

  function RecordsOf(chunks: seq<string>): seq<Record>
  {
    if chunks == [] then []
    else
      var front := RecordsOf(chunks[..|chunks| - 1]);
      match RecordOf(chunks[|chunks| - 1])
      case None => front
      case Some(r) => front + [r]
  }

  /** `re.split(r"<eor>", s, flags=re.IGNORECASE)`: no chunk holds an
      `<eor>` in any case. */
  function SplitEor(s: string): (r: seq<string>)
    ensures |r| >= 1
    ensures forall t :: 0 <= t < |r| ==> forall k: nat :: !OccursLowerAt(r[t], "<eor>", k)
    decreases |s|
  {
    var i := FindLower(s, "<eor>", 0);
    if i == -1 then [s]
    else
      NoMarkerBefore(s, "<eor>", i);
      [s[..i]] + SplitEor(s[i + 5..])
  }

  /** A text holds no occurrence of `p` before `i` exactly when its first
      `i` characters hold none. */
  lemma NoMarkerBefore(s: string, p: string, i: nat)
    requires i <= |s| && |p| >= 1
    requires forall k: nat :: k < i ==> !OccursLowerAt(s, p, k)
    ensures forall k: nat :: !OccursLowerAt(s[..i], p, k)
  {
    forall k: nat | OccursLowerAt(s[..i], p, k)
      ensures false
    {
      assert s[..i][k..k + |p|] == s[k..k + |p|];
      assert k < i && OccursLowerAt(s, p, k);
    }
  }

  /** The `<eor>` markers the split cuts out, as they are written. */
  function EorMarkers(s: string): (m: seq<string>)
    ensures forall t :: 0 <= t < |m| ==> Lower(m[t]) == "<eor>"
    decreases |s|
  {
    var i := FindLower(s, "<eor>", 0);
    if i == -1 then [] else [s[i..i + 5]] + EorMarkers(s[i + 5..])
  }

  /** The chunks with the markers put back between them. */
  function Interleave(chunks: seq<string>, markers: seq<string>): string
    requires |chunks| == |markers| + 1
    decreases |markers|
  {
    if markers == [] then chunks[0]
    else chunks[0] + markers[0] + Interleave(chunks[1..], markers[1..])
  }

  /** The chunks are the text between successive markers: there is one
      chunk more than markers, and putting the markers back between the
      chunks gives the text again. */
  lemma {:induction false} SplitEorJoin(s: string)
    ensures |SplitEor(s)| == |EorMarkers(s)| + 1
    ensures Interleave(SplitEor(s), EorMarkers(s)) == s
    decreases |s|
  {
    var i := FindLower(s, "<eor>", 0);
    if i != -1 {
      var rest := s[i + 5..];
      SplitEorJoin(rest);
      SplitEorCut(s, i, rest);
      InterleaveCons(s[..i], s[i..i + 5], SplitEor(rest), EorMarkers(rest));
      CutJoin(s, i, i + 5);
    }
  }

  lemma CutJoin(s: string, i: nat, e: nat)
    requires i <= e <= |s|
    ensures s[..i] + s[i..e] + s[e..] == s
  {
  }

  /** At the first marker the split cuts off one chunk and one marker. */
  lemma SplitEorCut(s: string, i: int, rest: string)
    requires i == FindLower(s, "<eor>", 0) && i != -1 && rest == s[i + 5..]
    ensures SplitEor(s) == [s[..i]] + SplitEor(rest)
    ensures EorMarkers(s) == [s[i..i + 5]] + EorMarkers(rest)
  {
  }

  lemma InterleaveCons(c: string, m: string, cs: seq<string>, ms: seq<string>)
    requires |cs| == |ms| + 1
    ensures Interleave([c] + cs, [m] + ms) == c + m + Interleave(cs, ms)
  {
    assert ([c] + cs)[1..] == cs && ([m] + ms)[1..] == ms;
  }

  /** The whole parse, as a function of the report text: it fails exactly
      when the text holds no `<eoh>` in any case. */
  function ParseSpec(text: string): (r: Result<seq<Record>, ParseError>)
    ensures r.Err? <==> forall k :: !OccursLowerAt(text, "<eoh>", k)
  {
    var eoh := FindLower(text, "<eoh>", 0);
    if eoh == -1 then Err(MissingEndOfHeader)
    else Ok(RecordsOf(SplitEor(Strip(text[eoh + 5..]))))
  }

  /** A tag name as stored: non-empty, without `:` or `>`, and without a
      lower-case ASCII letter. */
  predicate WellFormedKey(k: string)
  {
    |k| >= 1 && IsUpperCase(k) && forall t :: 0 <= t < |k| ==> !IsStop(k[t])
  }

  /** A value as stored: no whitespace at either end. */
  predicate Stripped(v: string)
  {
    v == [] || (!IsSpace(v[0]) && !IsSpace(v[|v| - 1]))
  }

  predicate WellFormedRecord(r: Record)
  {
    forall k :: k in r ==> WellFormedKey(k) && Stripped(r[k])
  }

  /** `LoTWClient.parse_adif`: fails exactly when the text holds no `<eoh>`
      in any case; otherwise every record is non-empty, with upper-case
      tag names and stripped values. */
  method ParseAdif(text: string) returns (r: Result<seq<Record>, ParseError>)
    ensures r.Err? <==> forall k :: !OccursLowerAt(text, "<eoh>", k)
    ensures r == ParseSpec(text)
    ensures r.Ok? ==> forall i :: 0 <= i < |r.value| ==> r.value[i] != map[] && WellFormedRecord(r.value[i])
  {
    var eoh := FindLower(text, "<eoh>", 0);
    if eoh == -1 {
      return Err(MissingEndOfHeader);
    }
    var recordsText := Strip(text[eoh + 5..]);
    var chunks := SplitEor(recordsText);
    var records: seq<Record> := [];
    for ci := 0 to |chunks|
      invariant records == RecordsOf(chunks[..ci])
    {
      RecordsOfPrefix(chunks, ci);
      var chunk := Strip(chunks[ci]);
      if chunk == [] {
        continue;
      }
      var fields := ScanChunk(chunk);
      if fields != map[] {
        records := records + [fields];
      }
    }
    assert chunks[..|chunks|] == chunks;
    r := Ok(records);
    RecordsWellFormed(chunks);
  }

  /** The field loop of `parse_adif` over one chunk: search for the next
      tag from the cursor, store its stripped value under its upper-cased
      name, and move the cursor to the end of the value. */
  method ScanChunk(chunk: string) returns (fields: Record)
    ensures fields == FieldsOf(chunk)
  {
    fields := map[];
    var pos: nat := 0;
    while true
      invariant StoreAll(fields, chunk, Matches(chunk, pos)) == FieldsOf(chunk)
      decreases |chunk| - pos
    {
      var found := Search(chunk, pos);
      if found.None? {
        MatchesDone(chunk, pos);
        return;
      }
      var m := found.value;
      var next := m.valueStart + m.length;
      LoopStep(chunk, pos, fields, m, next, FieldsOf(chunk));
      fields := fields[Upper(m.name) := ValueOf(chunk, m)];
      pos := next;
    }
  }

  /** The loop invariant of `ScanChunk` survives one turn. */
  lemma LoopStep(chunk: string, pos: nat, fields: Record, m: FieldMatch, next: nat, target: Record)
    requires Search(chunk, pos) == Some(m) && next == m.valueStart + m.length
    requires StoreAll(fields, chunk, Matches(chunk, pos)) == target
    ensures StoreAll(fields[Upper(m.name) := ValueOf(chunk, m)], chunk, Matches(chunk, next)) == target
  {
    LoopStoresField(chunk, pos, fields, m, next);
  }

  lemma MatchesDone(chunk: string, pos: nat)
    requires Search(chunk, pos).None?
    ensures Matches(chunk, pos) == []
  {
  }

  lemma MatchesStep(chunk: string, pos: nat, m: FieldMatch, next: nat)
    requires Search(chunk, pos) == Some(m) && next == m.valueStart + m.length
    ensures Matches(chunk, pos) == [m] + Matches(chunk, next)
  {
  }

  lemma RecordsOfPrefix(chunks: seq<string>, ci: nat)
    requires ci < |chunks|
    ensures RecordsOf(chunks[..ci + 1])
         == RecordsOf(chunks[..ci]) + (if RecordOf(chunks[ci]).Some? then [RecordOf(chunks[ci]).value] else [])
  {
    assert chunks[..ci + 1][..ci] == chunks[..ci];
  }

  /** The first group of a match is a non-empty run without `:` or `>`. */
  lemma TagAtName(s: string, i: nat)
    requires TagAt(s, i).Some?
    ensures GoodName(TagAt(s, i).value.name)
  {
    StopAtSkips(s, i + 1);
  }

  /** The stored form of a tag name is a well-formed key. */
  lemma UpperTagName(name: string)
    requires GoodName(name)
    ensures WellFormedKey(Upper(name))
  {
    UpperIsUpperCase(name);
    var u := Upper(name);
    forall t | 0 <= t < |u| ensures !IsStop(u[t]) {
      assert u[t] == UpperChar(name[t]);
    }
  }

  /** A first group of the field pattern: non-empty, without `:` or `>`. */
  predicate GoodName(name: string)
  {
    |name| >= 1 && forall t :: 0 <= t < |name| ==> !IsStop(name[t])
  }

  /** Every match the field loop finds has a good name. */
  lemma {:induction false} MatchNamesGood(chunk: string, pos: nat)
    ensures forall i :: 0 <= i < |Matches(chunk, pos)| ==> GoodName(Matches(chunk, pos)[i].name)
    decreases |chunk| - pos
  {
    var found := Search(chunk, pos);
    if found.Some? {
      var m := found.value;
      var next := m.valueStart + m.length;
      SearchFound(chunk, pos);
      TagAtName(chunk, m.start);
      MatchesStep(chunk, pos, m, next);
      MatchNamesGood(chunk, next);
      ConsNamesGood(m, Matches(chunk, next));
    }
  }

  lemma ConsNamesGood(m: FieldMatch, rest: seq<FieldMatch>)
    requires GoodName(m.name)
    requires forall i :: 0 <= i < |rest| ==> GoodName(rest[i].name)
    ensures forall i :: 0 <= i < |[m] + rest| ==> GoodName(([m] + rest)[i].name)
  {
  }

  lemma {:induction false} StoreAllWellFormed(fields: Record, chunk: string, ms: seq<FieldMatch>)
    requires WellFormedRecord(fields)
    requires forall i :: 0 <= i < |ms| ==> GoodName(ms[i].name)
    ensures WellFormedRecord(StoreAll(fields, chunk, ms))
    decreases |ms|
  {
    if ms != [] {
      UpperTagName(ms[0].name);
      StoreFieldWellFormed(fields, chunk, ms[0]);
      StoreAllWellFormed(StoreField(fields, chunk, ms[0]), chunk, ms[1..]);
    }
  }

  lemma StoreFieldWellFormed(fields: Record, chunk: string, m: FieldMatch)
    requires WellFormedRecord(fields) && WellFormedKey(Upper(m.name))
    ensures WellFormedRecord(StoreField(fields, chunk, m))
  {
  }

  /** Every record the parse yields is non-empty, its keys are upper-case
      tag names and its values are stripped. */
  lemma {:induction false} RecordsWellFormed(chunks: seq<string>)
    ensures forall i :: 0 <= i < |RecordsOf(chunks)| ==>
      RecordsOf(chunks)[i] != map[] && WellFormedRecord(RecordsOf(chunks)[i])
  {
    if chunks != [] {
      RecordsWellFormed(chunks[..|chunks| - 1]);
      var c := Strip(chunks[|chunks| - 1]);
      if c != [] {
        MatchNamesGood(c, 0);
        StoreAllWellFormed(map[], c, Matches(c, 0));
      }
    }
  }

  /** Records come out in the order of their chunks: the parse of a
      concatenation of chunk lists is the concatenation of the parses. */
  lemma {:induction false} RecordsOfAppend(a: seq<string>, b: seq<string>)
    ensures RecordsOf(a + b) == RecordsOf(a) + RecordsOf(b)
    decreases |b|
  {
    if b == [] {
      assert a + b == a;
    } else {
      var b' := b[..|b| - 1];
      assert (a + b)[..|a + b| - 1] == a + b';
      assert (a + b)[|a + b| - 1] == b[|b| - 1];
      RecordsOfAppend(a, b');
    }
  }

  /** A single chunk yields one record exactly when, once stripped, it holds
      at least one field. */
  lemma RecordsOfOne(c: string)
    ensures RecordsOf([c]) == if Strip(c) != [] && FieldsOf(Strip(c)) != map[] then [FieldsOf(Strip(c))] else []
  {
    assert [c][..0] == [];
  }

  /** The field pattern written out: `<`, a non-empty name without `:` or
      `>`, `:`, a run of digits, an optional `:TYPE` without `>`, and `>`. */
  function TagText(name: string, digits: string, typeSpec: string): string
  {
    "<" + name + ":" + digits + typeSpec + ">"
  }

  predicate GoodTag(name: string, digits: string, typeSpec: string)
  {
    && GoodName(name)
    && |digits| >= 1 && AllDigits(digits)
    && (typeSpec == [] || (typeSpec[0] == ':' && forall t :: 0 <= t < |typeSpec| ==> typeSpec[t] != '>'))
  }

  lemma {:induction false} StopAtIs(s: string, from: nat, j: nat)
    requires from <= j < |s| && IsStop(s[j])
    requires forall t :: from <= t < j ==> !IsStop(s[t])
    ensures StopAt(s, from) == j
    decreases j - from
  {
    if from < j {
      StopAtIs(s, from + 1, j);
    }
  }

  lemma {:induction false} DigitsEndIs(s: string, from: nat, k: nat)
    requires from <= k < |s| && !IsDigit(s[k])
    requires forall t :: from <= t < k ==> IsDigit(s[t])
    ensures DigitsEnd(s, from) == k
    decreases k - from
  {
    if from < k {
      DigitsEndIs(s, from + 1, k);
    }
  }

  /** The digits `DigitsEnd` runs over are all digits. */
  lemma {:induction false} DigitsEndDigits(s: string, from: nat)
    requires from <= |s|
    ensures AllDigits(s[from..DigitsEnd(s, from)])
    decreases |s| - from
  {
    if from < |s| && IsDigit(s[from]) {
      DigitsEndDigits(s, from + 1);
      assert s[from..DigitsEnd(s, from)] == [s[from]] + s[from + 1..DigitsEnd(s, from)];
    }
  }

  lemma {:induction false} CloseAtIs(s: string, from: nat, e: nat)
    requires from <= e < |s| && s[e] == '>'
    requires forall t :: from <= t < e ==> s[t] != '>'
    ensures CloseAt(s, from) == e
    decreases e - from
  {
    if from < e {
      CloseAtIs(s, from + 1, e);
    }
  }

  /** The first group of a match runs to the first `:` or `>`. */
  lemma {:induction false} StopAtSkips(s: string, from: nat)
    requires from <= |s|
    ensures forall t :: from <= t < StopAt(s, from) ==> !IsStop(s[t])
    decreases |s| - from
  {
    if from < |s| && !IsStop(s[from]) {
      StopAtSkips(s, from + 1);
    }
  }

  /** The type group runs to the first `>`. */
  lemma {:induction false} CloseAtSkips(s: string, from: nat)
    requires from <= |s|
    ensures forall t :: from <= t < CloseAt(s, from) ==> s[t] != '>'
    decreases |s| - from
  {
    if from < |s| && s[from] != '>' {
      CloseAtSkips(s, from + 1);
    }
  }

  /** Every match is a well-formed tag: the text from `<` to the end of
      the match is `<NAME:DIGITS>` or `<NAME:DIGITS:TYPE>`, with the name
      and the decimal value of the digits the match reports. */
  lemma TagAtSound(s: string, i: nat)
    requires TagAt(s, i).Some?
    ensures exists name, digits, typeSpec ::
      && GoodTag(name, digits, typeSpec)
      && s[i..TagAt(s, i).value.valueStart] == TagText(name, digits, typeSpec)
      && TagAt(s, i).value.name == name
      && TagAt(s, i).value.length == DecimalValue(digits)
  {
    var j, k, close := TagAtSome(s, i);
    var name, digits, typeSpec := s[i + 1..j], s[j + 1..k], s[k..close];
    NameScanned(s, i, j, name);
    if s[k] != '>' {
      TypeScanned(s, k, close, typeSpec);
    }
    TagTextJoin(s, i, j, k, close);
    assert GoodTag(name, digits, typeSpec);
  }

  /** Where the scanners stopped when the pattern matches at `i`. */
  lemma TagAtSome(s: string, i: nat) returns (j: nat, k: nat, close: nat)
    requires TagAt(s, i).Some?
    ensures i + 1 < j && j + 1 < k <= close < |s|
    ensures s[i] == '<' && s[j] == ':' && s[close] == '>'
    ensures j == StopAt(s, i + 1) && k == DigitsEnd(s, j + 1)
    ensures (s[k] == '>' && close == k) || (s[k] == ':' && close == CloseAt(s, k + 1))
    ensures AllDigits(s[j + 1..k])
    ensures TagAt(s, i).value == FieldMatch(i, s[i + 1..j], DecimalValue(s[j + 1..k]), close + 1)
  {
    j := StopAt(s, i + 1);
    k := DigitsEnd(s, j + 1);
    close := if s[k] == '>' then k else CloseAt(s, k + 1);
    DigitsEndDigits(s, j + 1);
  }

  lemma NameScanned(s: string, i: nat, j: nat, name: string)
    requires i + 1 < j <= |s| && j == StopAt(s, i + 1) && name == s[i + 1..j]
    ensures GoodName(name)
  {
    StopAtSkips(s, i + 1);
    forall t | 0 <= t < |name| ensures !IsStop(name[t]) {
      assert name[t] == s[i + 1 + t];
    }
  }

  lemma TypeScanned(s: string, k: nat, close: nat, typeSpec: string)
    requires k < close <= |s| && s[k] == ':' && close == CloseAt(s, k + 1) && typeSpec == s[k..close]
    ensures typeSpec[0] == ':' && forall t :: 0 <= t < |typeSpec| ==> typeSpec[t] != '>'
  {
    CloseAtSkips(s, k + 1);
    forall t | 0 <= t < |typeSpec| ensures typeSpec[t] != '>' {
      assert typeSpec[t] == s[k + t];
    }
  }

  /** A text cut at `<`, the `:` after the name, the end of the digits and
      the closing `>` reads as the tag of its parts. */
  lemma TagTextJoin(s: string, i: nat, j: nat, k: nat, close: nat)
    requires i < j < k <= close < |s|
    requires s[i] == '<' && s[j] == ':' && s[close] == '>'
    ensures s[i..close + 1] == TagText(s[i + 1..j], s[j + 1..k], s[k..close])
  {
    assert s[i..close + 1] == [s[i]] + s[i + 1..j] + [s[j]] + s[j + 1..k] + s[k..close] + [s[close]];
  }

  /** Where the parts of a well-formed tag sit in a text that holds it at
      `i`: the name ends at `j`, the digits at `k` and the type at `e`. */
  lemma TagTextParts(s: string, i: nat, name: string, digits: string, typeSpec: string, j: nat, k: nat, e: nat)
    requires j == i + 1 + |name| && k == j + 1 + |digits| && e == k + |typeSpec|
    requires i + |TagText(name, digits, typeSpec)| <= |s|
    requires s[i..i + |TagText(name, digits, typeSpec)|] == TagText(name, digits, typeSpec)
    ensures i + |TagText(name, digits, typeSpec)| == e + 1
    ensures s[i] == '<' && s[j] == ':' && s[e] == '>'
    ensures s[i + 1..j] == name && s[j + 1..k] == digits && s[k..e] == typeSpec
  {
    var tag := TagText(name, digits, typeSpec);
    assert tag == ['<'] + name + [':'] + digits + typeSpec + ['>'];
    forall t | 0 <= t < |tag| ensures s[i + t] == tag[t] {
      assert s[i..i + |tag|][t] == tag[t];
    }
    assert s[i] == tag[0];
    assert s[j] == tag[1 + |name|];
    assert s[e] == tag[|tag| - 1];
    forall t | 0 <= t < |name| ensures s[i + 1 + t] == name[t] {
      assert s[i + 1 + t] == tag[1 + t];
    }
    assert s[i + 1..j] == name;
    forall t | 0 <= t < |digits| ensures s[j + 1 + t] == digits[t] {
      assert s[j + 1 + t] == tag[2 + |name| + t];
    }
    assert s[j + 1..k] == digits;
    forall t | 0 <= t < |typeSpec| ensures s[k + t] == typeSpec[t] {
      assert s[k + t] == tag[2 + |name| + |digits| + t];
    }
    assert s[k..e] == typeSpec;
  }

  lemma TagAtGoodTag(s: string, i: nat, name: string, digits: string, typeSpec: string)
    requires GoodTag(name, digits, typeSpec)
    requires i + |TagText(name, digits, typeSpec)| <= |s|
    requires s[i..i + |TagText(name, digits, typeSpec)|] == TagText(name, digits, typeSpec)
    ensures TagAt(s, i) == Some(FieldMatch(i, name, DecimalValue(digits), i + |TagText(name, digits, typeSpec)|))
  {
    var j := i + 1 + |name|;
    var k := j + 1 + |digits|;
    var e := k + |typeSpec|;
    TagTextParts(s, i, name, digits, typeSpec, j, k, e);
    TagTextScans(s, i, name, digits, typeSpec, j, k, e);
    TagAtFromParts(s, i, j, k, e, name, digits);
  }

  /** The match at `i` read off the scanners' stopping points. */
  lemma TagAtFromParts(s: string, i: nat, j: nat, k: nat, close: nat, name: string, digits: string)
    requires i < |s| && s[i] == '<'
    requires i + 1 < j < |s| && StopAt(s, i + 1) == j && s[j] == ':'
    requires j + 1 < k <= close < |s|
    requires s[i + 1..j] == name && s[j + 1..k] == digits
    requires DigitsEnd(s, j + 1) == k && AllDigits(digits)
    requires (s[k] == '>' && close == k) || (s[k] == ':' && CloseAt(s, k + 1) == close)
    ensures TagAt(s, i) == Some(FieldMatch(i, name, DecimalValue(digits), close + 1))
  {
    LengthAtIs(s, i, j, k, close);
  }

  /** How the scanners run over a well-formed tag whose name ends at `j`,
      digits at `k` and type at `e`: the name group stops at the `:`, the
      digit run at the `>` or at the `:` of the type, and the type at the
      `>`. */
  lemma TagTextScans(s: string, i: nat, name: string, digits: string, typeSpec: string, j: nat, k: nat, e: nat)
    requires GoodTag(name, digits, typeSpec)
    requires j == i + 1 + |name| && k == j + 1 + |digits| && e == k + |typeSpec| && e < |s|
    requires s[i] == '<' && s[j] == ':' && s[e] == '>'
    requires s[i + 1..j] == name && s[j + 1..k] == digits && s[k..e] == typeSpec
    ensures StopAt(s, i + 1) == j
    ensures DigitsEnd(s, j + 1) == k
    ensures (typeSpec == [] && s[k] == '>' && e == k) || (s[k] == ':' && CloseAt(s, k + 1) == e)
  {
    NameScan(s, i, j, name);
    if typeSpec == [] {
      assert k == e;
    } else {
      assert s[k] == s[k..e][0] == ':';
      TypeScan(s, k, e, typeSpec);
    }
    DigitsScan(s, j, k, digits);
  }

  /** The name group of a match runs up to the `:` that follows the name. */
  lemma NameScan(s: string, i: nat, j: nat, name: string)
    requires i + 1 <= j < |s| && IsStop(s[j])
    requires s[i + 1..j] == name && forall t :: 0 <= t < |name| ==> !IsStop(name[t])
    ensures StopAt(s, i + 1) == j
  {
    forall t | i + 1 <= t < j ensures !IsStop(s[t]) {
      assert s[t] == name[t - i - 1];
    }
    StopAtIs(s, i + 1, j);
  }

  /** The length group runs over the digits up to the first non-digit. */
  lemma DigitsScan(s: string, j: nat, k: nat, digits: string)
    requires j + 1 <= k < |s| && !IsDigit(s[k])
    requires s[j + 1..k] == digits && AllDigits(digits)
    ensures DigitsEnd(s, j + 1) == k
  {
    forall t | j + 1 <= t < k ensures IsDigit(s[t]) {
      assert s[t] == digits[t - j - 1];
    }
    DigitsEndIs(s, j + 1, k);
  }

  /** The type group, which holds no `>`, ends at the `>` after it. */
  lemma TypeScan(s: string, k: nat, e: nat, typeSpec: string)
    requires k < e < |s| && s[e] == '>'
    requires s[k..e] == typeSpec && forall t :: 0 <= t < |typeSpec| ==> typeSpec[t] != '>'
    ensures CloseAt(s, k + 1) == e
  {
    forall t | k + 1 <= t < e ensures s[t] != '>' {
      assert s[t] == typeSpec[t - k];
    }
    CloseAtIs(s, k + 1, e);
  }

  lemma LengthAtIs(s: string, i: nat, j: nat, k: nat, close: nat)
    requires i < j && j + 1 < k <= close < |s|
    requires DigitsEnd(s, j + 1) == k && AllDigits(s[j + 1..k])
    requires (s[k] == '>' && close == k) || (s[k] == ':' && CloseAt(s, k + 1) == close)
    ensures LengthAt(s, i, j) == Some(FieldMatch(i, s[i + 1..j], DecimalValue(s[j + 1..k]), close + 1))
  {
  }

  /** The length-prefix rule: when the cursor stands on a well-formed tag
      followed by exactly LEN characters `v`, the next match is that tag
      and its value is `v`, whatever `v` contains (a `<`, a `>`, even a
      whole tag); the search resumes right after `v`, so `v` is never
      searched for tags. */
  lemma FieldAtCursor(chunk: string, pos: nat, name: string, digits: string, typeSpec: string, v: string)
    requires GoodTag(name, digits, typeSpec) && |v| == DecimalValue(digits)
    requires pos + |TagText(name, digits, typeSpec) + v| <= |chunk|
    requires chunk[pos..pos + |TagText(name, digits, typeSpec) + v|] == TagText(name, digits, typeSpec) + v
    ensures Search(chunk, pos) == Some(FieldMatch(pos, name, |v|, pos + |TagText(name, digits, typeSpec)|))
    ensures Slice(chunk, pos + |TagText(name, digits, typeSpec)|, pos + |TagText(name, digits, typeSpec)| + |v|) == v
  {
    var tag := TagText(name, digits, typeSpec);
    var end := pos + |tag + v|;
    assert chunk[pos..pos + |tag|] == chunk[pos..end][..|tag|];
    assert chunk[pos..end][..|tag|] == (tag + v)[..|tag|] == tag;
    TagAtGoodTag(chunk, pos, name, digits, typeSpec);
    SearchHit(chunk, pos);
    assert chunk[pos + |tag|..end] == chunk[pos..end][|tag|..];
    assert chunk[pos..end][|tag|..] == (tag + v)[|tag|..] == v;
  }

  /** One turn of the field loop: the match at the cursor has its value
      stored under its upper-cased name, and the loop goes on right after
      the value. */
  lemma LoopStoresField(chunk: string, pos: nat, fields: Record, m: FieldMatch, next: nat)
    requires Search(chunk, pos) == Some(m) && next == m.valueStart + m.length
    ensures StoreAll(fields, chunk, Matches(chunk, pos))
         == StoreAll(fields[Upper(m.name) := ValueOf(chunk, m)], chunk, Matches(chunk, next))
  {
    MatchesStep(chunk, pos, m, next);
    StoreAllCons(fields, chunk, m, Matches(chunk, next));
  }

  lemma SearchHit(s: string, pos: nat)
    requires TagAt(s, pos).Some?
    ensures Search(s, pos) == TagAt(s, pos)
  {
  }

  lemma StoreAllCons(fields: Record, chunk: string, m: FieldMatch, rest: seq<FieldMatch>)
    ensures StoreAll(fields, chunk, [m] + rest) == StoreAll(StoreField(fields, chunk, m), chunk, rest)
  {
    assert ([m] + rest)[1..] == rest;
  }

  /** When a tag name repeats, the later value wins: two successive
      matches whose names agree once upper-cased leave only the second
      value. */
  lemma RepeatedTagLastWins(fields: Record, chunk: string, m1: FieldMatch, m2: FieldMatch, rest: seq<FieldMatch>)
    requires Upper(m1.name) == Upper(m2.name)
    ensures StoreAll(fields, chunk, [m1] + ([m2] + rest)) == StoreAll(fields[Upper(m2.name) := ValueOf(chunk, m2)], chunk, rest)
  {
    StoreAllCons(fields, chunk, m1, [m2] + rest);
    StoreAllCons(StoreField(fields, chunk, m1), chunk, m2, rest);
    OverwriteSameKey(fields, Upper(m1.name), ValueOf(chunk, m1), Upper(m2.name), ValueOf(chunk, m2));
  }

  /** The index of the last match stored under key `k`, or -1. */
  function LastWith(ms: seq<FieldMatch>, k: string): (r: int)
    ensures -1 <= r < |ms|
    ensures r >= 0 ==> Upper(ms[r].name) == k
  {
    if ms == [] then -1
    else
      var later := LastWith(ms[1..], k);
      if later >= 0 then later + 1 else if Upper(ms[0].name) == k then 0 else -1
  }

  /** What the stored fields hold under each key: the value of the last
      match with that name, or what was there before when no match has it. */
  lemma {:induction false} StoreAllLookup(fields: Record, chunk: string, ms: seq<FieldMatch>, k: string)
    ensures k in StoreAll(fields, chunk, ms) <==> k in fields || LastWith(ms, k) >= 0
    ensures LastWith(ms, k) >= 0 ==> StoreAll(fields, chunk, ms)[k] == ValueOf(chunk, ms[LastWith(ms, k)])
    ensures LastWith(ms, k) < 0 && k in fields ==> StoreAll(fields, chunk, ms)[k] == fields[k]
    decreases |ms|
  {
    if ms != [] {
      StoreAllLookup(StoreField(fields, chunk, ms[0]), chunk, ms[1..], k);
      if LastWith(ms[1..], k) >= 0 {
        assert ms[1..][LastWith(ms[1..], k)] == ms[LastWith(ms, k)];
      }
    }
  }

  lemma OverwriteSameKey(fields: Record, k1: string, v1: string, k2: string, v2: string)
    requires k1 == k2
    ensures fields[k1 := v1][k2 := v2] == fields[k2 := v2]
  {
  }

  /** A `<` that does not open a well-formed tag is skipped by the search:
      an empty name, a name closed by `>` or by the end of the text (no
      `:LEN`), a `:` not followed by a digit, a digit run followed by
      anything but `>` or `:`, or a `:TYPE` with no closing `>` matches
      nowhere at that `<`, and the search goes on from the next character. */
  lemma MalformedTagSkipped(s: string, i: nat)
    requires i < |s| && s[i] == '<'
    requires var j := StopAt(s, i + 1);
      j == i + 1 || j == |s| || s[j] == '>' ||
      (var k := DigitsEnd(s, j + 1);
       k == j + 1 || k == |s| || (s[k] != '>' && s[k] != ':') || (s[k] == ':' && CloseAt(s, k + 1) == |s|))
    ensures TagAt(s, i).None?
    ensures Search(s, i) == Search(s, i + 1)
  {
  }

  /** Only the text after the first `<eoh>` matters: whatever header comes
      before it (one with no `<eoh>` of its own), the parse is that of the
      body alone. */
  lemma HeaderIgnored(header: string, eoh: string, body: string)
    requires Lower(eoh) == "<eoh>"
    requires forall k :: !OccursLowerAt(header, "<eoh>", k)
    ensures ParseSpec(header + eoh + body) == Ok(RecordsOf(SplitEor(Strip(body))))
  {
    var text := header + eoh + body;
    var h := |header|;
    forall k | 0 <= k < h
      ensures !OccursLowerAt(text, "<eoh>", k)
    {
      if k + 5 <= h {
        assert text[k..k + 5] == header[k..k + 5];
        assert !OccursLowerAt(header, "<eoh>", k);
      } else if k + 5 <= |text| {
        assert text[h] == eoh[0];
        assert Lower(eoh)[0] == LowerChar(eoh[0]) == '<';
        assert text[k..k + 5][h - k] == text[h];
        assert Lower(text[k..k + 5])[h - k] == LowerChar(text[h]);
      }
    }
    assert text[h..h + 5] == eoh;
    assert OccursLowerAt(text, "<eoh>", h);
    assert FindLower(text, "<eoh>", 0) == h;
    assert text[h + 5..] == body;
  }
}

=== FILE: mapview.dfy ===
/** The map geometry of the monitor: the 2-by-1 degree box of a Maidenhead
    square, the equirectangular projection onto an image of the world, and
    the part of that image a map of confirmed squares is cropped to.
    Coordinates are exact `real`s. */
module MapView {
  import opened Wrappers
  import opened Text

  /** A latitude/longitude box, in the order the source returns it. */
  datatype Box = Box(latMin: real, lonMin: real, latMax: real, lonMax: real)

  /** The box `(0, 0, 0, 0)` that stands for "no square"; the scan skips a
      box whose latitudes are both zero. */
  predicate IsZero(b: Box)
  {
    b.latMin == 0.0 && b.latMax == 0.0
  }

  /** The box lies within the world and is not inverted. */
  predicate InWorld(b: Box)
  {
    -90.0 <= b.latMin <= b.latMax <= 90.0 && -180.0 <= b.lonMin <= b.lonMax <= 180.0
  }

  /** `outer` contains `inner`. */
  predicate Encloses(outer: Box, inner: Box)
  {
    outer.latMin <= inner.latMin && inner.latMax <= outer.latMax &&
    outer.lonMin <= inner.lonMin && inner.lonMax <= outer.lonMax
  }

  /** A four-character Maidenhead locator: field letters A-R, then two
      square digits. */
  predicate IsLocator(t: string)
  {
    |t| >= 4 && 'A' <= t[0] <= 'R' && 'A' <= t[1] <= 'R' && IsDigit(t[2]) && IsDigit(t[3])
  }

  function DigitValue(c: char): int
  {
    c as int - '0' as int
  }

  /** `_grid_to_latlon`: the token is upper-cased and stripped; shorter than
      four characters it yields the zero box; a non-digit third or fourth
      character makes `int()` raise (`None` here); otherwise the square is
      2 degrees of longitude by 1 of latitude from its south-west corner.
      Characters after the fourth are ignored. */
  function GridToLatLon(grid: string): (r: Option<Box>)
    ensures r.Some? ==> r.value.latMin <= r.value.latMax && r.value.lonMin <= r.value.lonMax
    ensures r.Some? && !IsZero(r.value) ==> r.value.latMax == r.value.latMin + 1.0 && r.value.lonMax == r.value.lonMin + 2.0
  {
    var t := Strip(Upper(grid));
    if |t| < 4 then Some(Box(0.0, 0.0, 0.0, 0.0))
    else if !IsDigit(t[2]) || !IsDigit(t[3]) then None
    else
      var f1 := t[0] as int - 'A' as int;
      var f2 := t[1] as int - 'A' as int;
      var s1 := DigitValue(t[2]);
      var s2 := DigitValue(t[3]);
      var lonMin := -180.0 + f1 as real * 20.0 + s1 as real * 2.0;
      var latMin := -90.0 + f2 as real * 10.0 + s2 as real * 1.0;
      Some(Box(latMin, lonMin, latMin + 1.0, lonMin + 2.0))
  }

  /** The three outcomes of the conversion: the zero box for a short token,
      failure for a non-digit square, and otherwise a box 2 degrees wide
      and 1 degree high. */
  lemma GridToLatLonCases(grid: string)
    ensures var t, r := Strip(Upper(grid)), GridToLatLon(grid);
      (|t| < 4 ==> r == Some(Box(0.0, 0.0, 0.0, 0.0))) &&
      (r.None? <==> |t| >= 4 && !(IsDigit(t[2]) && IsDigit(t[3]))) &&
      (r.Some? && |t| >= 4 ==> r.value.lonMax == r.value.lonMin + 2.0 && r.value.latMax == r.value.latMin + 1.0)
  {
  }

  /** Characters after the fourth do not matter: two tokens that agree on
      their first four characters, once upper-cased and stripped, convert
      alike. */
  lemma GridToLatLonFirstFour(grid1: string, grid2: string)
    requires |Strip(Upper(grid1))| >= 4 && |Strip(Upper(grid2))| >= 4
    requires Strip(Upper(grid1))[..4] == Strip(Upper(grid2))[..4]
    ensures GridToLatLon(grid1) == GridToLatLon(grid2)
  {
    var t1, t2 := Strip(Upper(grid1)), Strip(Upper(grid2));
    assert t1[0] == t2[0] && t1[1] == t2[1] && t1[2] == t2[2] && t1[3] == t2[3] by {
      assert t1[..4][0] == t1[0] && t1[..4][1] == t1[1] && t1[..4][2] == t1[2] && t1[..4][3] == t1[3];
      assert t2[..4][0] == t2[0] && t2[..4][1] == t2[1] && t2[..4][2] == t2[2] && t2[..4][3] == t2[3];
    }
  }

  /** Only a token shorter than four characters gives the zero box, so the
      scan skips exactly those. */
  lemma ZeroBoxIffShort(grid: string)
    requires GridToLatLon(grid).Some?
    ensures IsZero(GridToLatLon(grid).value) <==> |Strip(Upper(grid))| < 4
  {
  }

  /** The box of a locator is its 2-by-1 degree square, given by the field
      letters and square digits, and lies within the world. */
  lemma LocatorBox(grid: string)
    requires IsLocator(Strip(Upper(grid)))
    ensures var t := Strip(Upper(grid));
      GridToLatLon(grid) == Some(Box(
        -90.0 + (t[1] as int - 'A' as int) as real * 10.0 + DigitValue(t[3]) as real,
        -180.0 + (t[0] as int - 'A' as int) as real * 20.0 + DigitValue(t[2]) as real * 2.0,
        -90.0 + (t[1] as int - 'A' as int) as real * 10.0 + DigitValue(t[3]) as real + 1.0,
        -180.0 + (t[0] as int - 'A' as int) as real * 20.0 + DigitValue(t[2]) as real * 2.0 + 2.0))
    ensures InWorld(GridToLatLon(grid).value)
  {
  }

  /** The locator of the square a point of the world lies in: the inverse
      of `GridToLatLon`. */
  function SquareAt(lat: real, lon: real): (t: string)
    requires -90.0 <= lat < 90.0 && -180.0 <= lon < 180.0
    ensures IsLocator(t) && |t| == 4
  {
    var x := ((lon + 180.0) / 2.0).Floor;
    var y := (lat + 90.0).Floor;
    [('A' as int + x / 10) as char, ('A' as int + y / 10) as char,
     ('0' as int + x % 10) as char, ('0' as int + y % 10) as char]
  }

  /** Every point of a locator's box lies in that locator's square: the
      box and the locator determine each other. */
  lemma SquareAtInverse(grid: string, lat: real, lon: real)
    requires IsLocator(Strip(Upper(grid)))
    requires var b := GridToLatLon(grid).value; b.latMin <= lat < b.latMax && b.lonMin <= lon < b.lonMax
    ensures -90.0 <= lat < 90.0 && -180.0 <= lon < 180.0
    ensures SquareAt(lat, lon) == Strip(Upper(grid))[..4]
  {
    var t := Strip(Upper(grid));
    LocatorBox(grid);
    var f1 := t[0] as int - 'A' as int;
    var f2 := t[1] as int - 'A' as int;
    var s1 := DigitValue(t[2]);
    var s2 := DigitValue(t[3]);
    var x := ((lon + 180.0) / 2.0).Floor;
    var y := (lat + 90.0).Floor;
    assert x == 10 * f1 + s1;
    assert y == 10 * f2 + s2;
    assert x / 10 == f1 && x % 10 == s1;
    assert y / 10 == f2 && y % 10 == s2;
    assert ('A' as int + f1) as char == t[0];
    assert ('0' as int + s1) as char == t[2];
  }

  /** `_project`: the equirectangular projection of a point onto a `w` by
      `h` image of the world. */
  function ProjectX(lon: real, w: nat): (x: real)
    ensures -180.0 <= lon <= 180.0 ==> 0.0 <= x <= w as real
  {
    (lon + 180.0) * (w as real / 360.0)
  }

  function ProjectY(lat: real, h: nat): (y: real)
    ensures -90.0 <= lat <= 90.0 ==> 0.0 <= y <= h as real
  {
    var k := h as real / 180.0;
    assert -90.0 <= lat <= 90.0 ==> (90.0 - lat) * k <= 180.0 * k;
    (90.0 - lat) * k
  }

  /** The north-west corner of the world is pixel (0, 0) and the
      south-east corner is (w, h). */
  lemma ProjectCorners(w: nat, h: nat)
    ensures ProjectX(-180.0, w) == 0.0 && ProjectY(90.0, h) == 0.0
    ensures ProjectX(180.0, w) == w as real && ProjectY(-90.0, h) == h as real
  {
  }

  /** x grows with longitude, y falls as latitude grows. */
  lemma ProjectMonotone(lat1: real, lat2: real, lon1: real, lon2: real, w: nat, h: nat)
    requires lat1 <= lat2 && lon1 <= lon2
    ensures ProjectX(lon1, w) <= ProjectX(lon2, w)
    ensures ProjectY(lat2, h) <= ProjectY(lat1, h)
  {
    ProjectXMonotone(lon1, lon2, w);
    ProjectYMonotone(lat1, lat2, h);
  }

  lemma ProjectXMonotone(lon1: real, lon2: real, w: nat)
    requires lon1 <= lon2
    ensures ProjectX(lon1, w) <= ProjectX(lon2, w)
  {
    var k := w as real / 360.0;
    calc {
      ProjectX(lon1, w);
    ==
      (lon1 + 180.0) * k;
    <= { MulMono(lon1 + 180.0, lon2 + 180.0, k); }
      (lon2 + 180.0) * k;
    ==
      ProjectX(lon2, w);
    }
  }

  lemma ProjectYMonotone(lat1: real, lat2: real, h: nat)
    requires lat1 <= lat2
    ensures ProjectY(lat2, h) <= ProjectY(lat1, h)
  {
    var k := h as real / 180.0;
    calc {
      ProjectY(lat2, h);
    ==
      (90.0 - lat2) * k;
    <= { MulMono(90.0 - lat2, 90.0 - lat1, k); }
      (90.0 - lat1) * k;
    ==
      ProjectY(lat1, h);
    }
  }

  lemma MulMono(a: real, b: real, k: real)
    requires a <= b && 0.0 <= k
    ensures a * k <= b * k
  {
  }

  /** A point of the world projects into the image. */
  lemma ProjectInImage(lat: real, lon: real, w: nat, h: nat)
    requires -90.0 <= lat <= 90.0 && -180.0 <= lon <= 180.0
    ensures 0.0 <= ProjectX(lon, w) <= w as real
    ensures 0.0 <= ProjectY(lat, h) <= h as real
  {
    ProjectCorners(w, h);
    ProjectMonotone(lat, 90.0, -180.0, lon, w, h);
    ProjectMonotone(-90.0, lat, lon, 180.0, w, h);
  }

  /** The longitude and latitude at a pixel of a non-empty image. */
  function UnprojectX(x: real, w: nat): real
    requires w > 0
  {
    x * 360.0 / (w as real) - 180.0
  }

  function UnprojectY(y: real, h: nat): real
    requires h > 0
  {
    90.0 - y * 180.0 / (h as real)
  }

  /** On a non-empty image the projection can be undone. */
  lemma ProjectInverse(lat: real, lon: real, w: nat, h: nat)
    requires w > 0 && h > 0
    ensures UnprojectX(ProjectX(lon, w), w) == lon
    ensures UnprojectY(ProjectY(lat, h), h) == lat
  {
    UnprojectXInverse(lon, w);
    UnprojectYInverse(lat, h);
  }

  lemma UnprojectXInverse(lon: real, w: nat)
    requires w > 0
    ensures UnprojectX(ProjectX(lon, w), w) == lon
  {
    var kw := w as real;
    assert ProjectX(lon, w) * 360.0 == (lon + 180.0) * kw;
    Cancel(lon + 180.0, kw);
  }

  lemma UnprojectYInverse(lat: real, h: nat)
    requires h > 0
    ensures UnprojectY(ProjectY(lat, h), h) == lat
  {
    var kh := h as real;
    assert ProjectY(lat, h) * 180.0 == (90.0 - lat) * kh;
    Cancel(90.0 - lat, kh);
  }

  lemma Cancel(a: real, k: real)
    requires k != 0.0
    ensures a * k / k == a
  {
  }

  /** Python's `int()` on a float: truncation toward zero. */
  function Trunc(x: real): (r: int)
    ensures 0.0 <= x ==> r as real <= x < r as real + 1.0
    ensures x < 0.0 ==> r as real - 1.0 < x <= r as real
  {
    if x >= 0.0 then x.Floor else -((-x).Floor)
  }

  function MaxReal(a: real, b: real): real { if a >= b then a else b }
  function MinReal(a: real, b: real): real { if a <= b then a else b }
  function MaxInt(a: int, b: int): int { if a >= b then a else b }
  function MinInt(a: int, b: int): int { if a <= b then a else b }

  function LatMinOf(b: Box): real { b.latMin }
  function LonMinOf(b: Box): real { b.lonMin }
  function LatMaxOf(b: Box): real { b.latMax }
  function LonMaxOf(b: Box): real { b.lonMax }

  /** The least of `start` and the values `f` takes on `bs`. */
  ghost function Low(bs: set<Box>, start: real, f: Box -> real): (m: real)
    ensures m == start || exists b :: b in bs && f(b) == m
    ensures m <= start && forall b :: b in bs ==> m <= f(b)
  {
    if bs == {} then start
    else
      var b :| b in bs;
      var r := Low(bs - {b}, start, f);
      if f(b) < r then f(b) else r
  }

  /** The greatest of `start` and the values `f` takes on `bs`. */
  ghost function High(bs: set<Box>, start: real, f: Box -> real): (m: real)
    ensures m == start || exists b :: b in bs && f(b) == m
    ensures start <= m && forall b :: b in bs ==> f(b) <= m
  {
    if bs == {} then start
    else
      var b :| b in bs;
      var r := High(bs - {b}, start, f);
      if f(b) > r then f(b) else r
  }

  lemma LowUnique(bs: set<Box>, start: real, f: Box -> real, m: real)
    requires m == start || exists b :: b in bs && f(b) == m
    requires m <= start && forall b :: b in bs ==> m <= f(b)
    ensures Low(bs, start, f) == m
  {
  }

  lemma HighUnique(bs: set<Box>, start: real, f: Box -> real, m: real)
    requires m == start || exists b :: b in bs && f(b) == m
    requires start <= m && forall b :: b in bs ==> f(b) <= m
    ensures High(bs, start, f) == m
  {
  }

  /** Adding a box moves the least value only if the box lies below it. */
  lemma LowInsert(bs: set<Box>, start: real, f: Box -> real, b: Box)
    ensures Low(bs + {b}, start, f) == if f(b) < Low(bs, start, f) then f(b) else Low(bs, start, f)
  {
    LowUnique(bs + {b}, start, f, if f(b) < Low(bs, start, f) then f(b) else Low(bs, start, f));
  }

  lemma HighInsert(bs: set<Box>, start: real, f: Box -> real, b: Box)
    ensures High(bs + {b}, start, f) == if f(b) > High(bs, start, f) then f(b) else High(bs, start, f)
  {
    HighUnique(bs + {b}, start, f, if f(b) > High(bs, start, f) then f(b) else High(bs, start, f));
  }

  /** The scan takes this token into account: it converts and is not the
      zero box. */
  predicate Counts(grid: string)
  {
    GridToLatLon(grid).Some? && !IsZero(GridToLatLon(grid).value)
  }

  /** The boxes the scan takes into account. */
  ghost function CountedBoxes(grids: set<string>): set<Box>
  {
    set g | g in grids && Counts(g) :: GridToLatLon(g).value
  }

  /** What the scan over the squares arrives at: the least and greatest
      latitudes and longitudes of the counted boxes, starting from the
      inverted world box (90, 180, -90, -180). */
  ghost function Hull(bs: set<Box>): Box
  {
    Box(Low(bs, 90.0, LatMinOf), Low(bs, 180.0, LonMinOf),
        High(bs, -90.0, LatMaxOf), High(bs, -180.0, LonMaxOf))
  }

  /** The hull contains every counted box, and each of its sides is the
      side of a counted box unless it is still the starting value. */
  lemma HullEncloses(bs: set<Box>)
    ensures forall b :: b in bs ==> Encloses(Hull(bs), b)
    ensures Hull(bs).latMin == 90.0 || exists b :: b in bs && b.latMin == Hull(bs).latMin
    ensures Hull(bs).latMax == -90.0 || exists b :: b in bs && b.latMax == Hull(bs).latMax
    ensures Hull(bs).lonMin == 180.0 || exists b :: b in bs && b.lonMin == Hull(bs).lonMin
    ensures Hull(bs).lonMax == -180.0 || exists b :: b in bs && b.lonMax == Hull(bs).lonMax
  {
    forall b | b in bs
      ensures Encloses(Hull(bs), b)
    {
      assert LatMinOf(b) == b.latMin && LatMaxOf(b) == b.latMax;
      assert LonMinOf(b) == b.lonMin && LonMaxOf(b) == b.lonMax;
    }
  }

  /** The hull of boxes within the world is within the world. */
  lemma HullInWorld(bs: set<Box>)
    requires bs != {}
    requires forall b :: b in bs ==> InWorld(b)
    ensures InWorld(Hull(bs))
  {
    HullEncloses(bs);
    var b :| b in bs;
  }

  /** One step of the scan: the sides move out to a box that lies beyond
      them. */
  function Extend(h: Box, b: Box): Box
  {
    Box(if b.latMin < h.latMin then b.latMin else h.latMin,
        if b.lonMin < h.lonMin then b.lonMin else h.lonMin,
        if b.latMax > h.latMax then b.latMax else h.latMax,
        if b.lonMax > h.lonMax then b.lonMax else h.lonMax)
  }

  lemma HullStep(bs: set<Box>, b: Box)
    ensures Hull(bs + {b}) == Extend(Hull(bs), b)
  {
    LowInsert(bs, 90.0, LatMinOf, b);
    LowInsert(bs, 180.0, LonMinOf, b);
    HighInsert(bs, -90.0, LatMaxOf, b);
    HighInsert(bs, -180.0, LonMaxOf, b);
  }

  lemma CountedStep(done: set<string>, g: string)
    ensures CountedBoxes(done + {g}) ==
      CountedBoxes(done) + (if Counts(g) then {GridToLatLon(g).value} else {})
  {
  }

  /** The 3-degree padding, clamped to the world. */
  function Pad(b: Box): (r: Box)
    ensures -90.0 <= r.latMin && r.latMax <= 90.0 && -180.0 <= r.lonMin && r.lonMax <= 180.0
    ensures InWorld(b) ==> InWorld(r) && Encloses(r, b)
  {
    Box(MaxReal(-90.0, b.latMin - 3.0), MaxReal(-180.0, b.lonMin - 3.0),
        MinReal(90.0, b.latMax + 3.0), MinReal(180.0, b.lonMax + 3.0))
  }

  /** Padding a box of the world gives a box of the world around it. */
  lemma PadEncloses(b: Box)
    requires InWorld(b)
    ensures Encloses(Pad(b), b) && InWorld(Pad(b))
  {
  }

  /** The minimum zoom: an axis narrower than 20 degrees becomes the 20
      degrees around its middle, clamped to the world. */
  function Zoom(b: Box): (r: Box)
    ensures -90.0 <= b.latMin ==> -90.0 <= r.latMin
    ensures b.latMax <= 90.0 ==> r.latMax <= 90.0
    ensures -180.0 <= b.lonMin ==> -180.0 <= r.lonMin
    ensures b.lonMax <= 180.0 ==> r.lonMax <= 180.0
  {
    var lat := if b.latMax - b.latMin < 20.0 then
        var mid := (b.latMin + b.latMax) / 2.0;
        (MaxReal(-90.0, mid - 10.0), MinReal(90.0, mid + 10.0))
      else (b.latMin, b.latMax);
    var lon := if b.lonMax - b.lonMin < 20.0 then
        var mid := (b.lonMin + b.lonMax) / 2.0;
        (MaxReal(-180.0, mid - 10.0), MinReal(180.0, mid + 10.0))
      else (b.lonMin, b.lonMax);
    Box(lat.0, lon.0, lat.1, lon.1)
  }

  /** Zooming a box of the world keeps it inside, stays in the world, and
      leaves each axis at least 20 degrees wide unless it meets the edge
      of the world. */
  lemma ZoomEncloses(b: Box)
    requires InWorld(b)
    ensures Encloses(Zoom(b), b) && InWorld(Zoom(b))
    ensures Zoom(b).latMax - Zoom(b).latMin >= 20.0 || Zoom(b).latMin == -90.0 || Zoom(b).latMax == 90.0
    ensures Zoom(b).lonMax - Zoom(b).lonMin >= 20.0 || Zoom(b).lonMin == -180.0 || Zoom(b).lonMax == 180.0
  {
  }

  /** What `generate` settles on before drawing: the conversion failed
      (it returns no image), the whole world, or a crop rectangle in
      pixels of the full image. */
  datatype View = Failed | FullWorld | Crop(left: int, top: int, right: int, bottom: int)

  /** The crop rectangle of a box: its projected corners truncated and
      clamped to the image; a rectangle with no area falls back to the
      whole world. */
  function CropOf(b: Box, w: nat, h: nat): (v: View)
    ensures v.Crop? ==> 0 <= v.left < v.right <= w && 0 <= v.top < v.bottom <= h
    ensures !v.Failed?
  {
    var left := MaxInt(0, Trunc(ProjectX(b.lonMin, w)));
    var top := MaxInt(0, Trunc(ProjectY(b.latMax, h)));
    var right := MinInt(w, Trunc(ProjectX(b.lonMax, w)));
    var bottom := MinInt(h, Trunc(ProjectY(b.latMin, h)));
    if right <= left || bottom <= top then FullWorld else Crop(left, top, right, bottom)
  }

  /** Some token of the set makes the conversion raise. */
  predicate AnyFails(grids: set<string>)
  {
    exists g :: g in grids && GridToLatLon(g).None?
  }

  /** The view `generate` computes for a set of squares on a `w` by `h`
      world image. */
  ghost function ViewOf(grids: set<string>, w: nat, h: nat): (v: View)
    ensures v.Failed? <==> AnyFails(grids)
    ensures v.Crop? ==> 0 <= v.left < v.right <= w && 0 <= v.top < v.bottom <= h
  {
    if AnyFails(grids) then Failed
    else if CountedBoxes(grids) == {} then FullWorld
    else CropOf(Zoom(Pad(Hull(CountedBoxes(grids)))), w, h)
  }

  /** One square of the scan: a short token leaves the counted boxes and
      the hull as they were, any other box joins them. */
  lemma ScanStep(done: set<string>, g: string, b: Box, found: bool, hull: Box)
    requires GridToLatLon(g) == Some(b)
    requires found <==> CountedBoxes(done) != {}
    requires hull == Hull(CountedBoxes(done))
    ensures (found || !IsZero(b)) <==> CountedBoxes(done + {g}) != {}
    ensures Hull(CountedBoxes(done + {g})) == if IsZero(b) then hull else Extend(hull, b)
  {
    if IsZero(b) {
      CountedSkip(done, g);
    } else {
      CountedJoin(done, g, b);
      HullStep(CountedBoxes(done), b);
    }
  }

  lemma CountedSkip(done: set<string>, g: string)
    requires !Counts(g)
    ensures CountedBoxes(done + {g}) == CountedBoxes(done)
  {
    CountedStep(done, g);
  }

  lemma CountedJoin(done: set<string>, g: string, b: Box)
    requires GridToLatLon(g) == Some(b) && !IsZero(b)
    ensures CountedBoxes(done + {g}) == CountedBoxes(done) + {b}
  {
    CountedStep(done, g);
  }

  lemma NoFailureStep(done: set<string>, g: string)
    requires !AnyFails(done) && GridToLatLon(g).Some?
    ensures !AnyFails(done + {g})
  {
  }

  lemma ScanMove(grids: set<string>, done: set<string>, rest: set<string>, g: string)
    requires done <= grids && rest == grids - done && g in rest
    ensures done + {g} <= grids && rest - {g} == grids - (done + {g})
  {
  }

  lemma ScanDone(grids: set<string>, done: set<string>)
    requires done <= grids && grids - done == {}
    ensures done == grids
  {
    assert forall g :: g in grids ==> g in done by {
      forall g | g in grids ensures g in done {
        assert g !in grids - done;
      }
    }
  }

  lemma ScanStart()
    ensures CountedBoxes({}) == {}
    ensures Hull({}) == Box(90.0, 180.0, -90.0, -180.0)
  {
  }

  /** The loop of `generate` over the squares: it stops at the first token
      that does not convert; otherwise it reports whether any box counted
      and the least and greatest latitudes and longitudes it saw. */
  method ScanGrids(grids: set<string>) returns (ok: bool, found: bool, hull: Box)
    ensures ok <==> !AnyFails(grids)
    ensures ok ==> (found <==> CountedBoxes(grids) != {})
    ensures ok ==> hull == Hull(CountedBoxes(grids))
  {
    var minLat, maxLat := 90.0, -90.0;
    var minLon, maxLon := 180.0, -180.0;
    found := false;
    var done: set<string> := {};
    var rest := grids;
    ScanStart();
    while rest != {}
      invariant done <= grids && rest == grids - done
      invariant !AnyFails(done)
      invariant found <==> CountedBoxes(done) != {}
      invariant Box(minLat, minLon, maxLat, maxLon) == Hull(CountedBoxes(done))
      decreases rest
    {
      var g :| g in rest;
      var box := GridToLatLon(g);
      if box.None? {
        return false, false, Box(minLat, minLon, maxLat, maxLon);
      }
      var b := box.value;
      ScanStep(done, g, b, found, Box(minLat, minLon, maxLat, maxLon));
      if !(b.latMin == 0.0 && b.latMax == 0.0) {
        minLat, minLon, maxLat, maxLon := Widen(minLat, minLon, maxLat, maxLon, b);
        found := true;
      }
      ScanMove(grids, done, rest, g);
      NoFailureStep(done, g);
      done := done + {g};
      rest := rest - {g};
    }
    ScanDone(grids, done);
    return true, found, Box(minLat, minLon, maxLat, maxLon);
  }

  /** One step of the extent scan: each side moves out to the square's
      side when the square reaches further. */
  method Widen(minLat: real, minLon: real, maxLat: real, maxLon: real, b: Box)
    returns (minLat': real, minLon': real, maxLat': real, maxLon': real)
    ensures Box(minLat', minLon', maxLat', maxLon') == Extend(Box(minLat, minLon, maxLat, maxLon), b)
  {
    minLat', minLon', maxLat', maxLon' := minLat, minLon, maxLat, maxLon;
    if b.latMin < minLat' { minLat' := b.latMin; }
    if b.latMax > maxLat' { maxLat' := b.latMax; }
    if b.lonMin < minLon' { minLon' := b.lonMin; }
    if b.lonMax > maxLon' { maxLon' := b.lonMax; }
  }

  /** The extent computation of `generate`: scan the squares; with none
      to show, the whole world; otherwise the crop of their hull. */
  method ComputeView(grids: set<string>, w: nat, h: nat) returns (v: View)
    ensures v == ViewOf(grids, w, h)
    ensures v.Failed? <==> AnyFails(grids)
    ensures v.Crop? ==> 0 <= v.left < v.right <= w && 0 <= v.top < v.bottom <= h
  {
    var ok, foundAny, hull := ScanGrids(grids);
    if !ok {
      return Failed;
    }
    if !foundAny {
      return FullWorld;
    }
    v := CropHull(hull, w, h);
  }

  /** The steps of `generate` after the scan: pad by 3 degrees within the
      world, widen an axis narrower than 20 degrees, project the corners
      onto the full image, truncate and clamp them, and fall back to the
      whole world when no area is left. */
  method CropHull(hull: Box, w: nat, h: nat) returns (v: View)
    ensures v == CropOf(Zoom(Pad(hull)), w, h)
    ensures v.Crop? ==> 0 <= v.left < v.right <= w && 0 <= v.top < v.bottom <= h
  {
    var minLat, maxLat, minLon, maxLon := hull.latMin, hull.latMax, hull.lonMin, hull.lonMax;
    var padding := 3.0;
    minLat := MaxReal(-90.0, minLat - padding);
    maxLat := MinReal(90.0, maxLat + padding);
    minLon := MaxReal(-180.0, minLon - padding);
    maxLon := MinReal(180.0, maxLon + padding);
    if maxLat - minLat < 20.0 {
      var mid := (minLat + maxLat) / 2.0;
      minLat := MaxReal(-90.0, mid - 10.0);
      maxLat := MinReal(90.0, mid + 10.0);
    }
    if maxLon - minLon < 20.0 {
      var mid := (minLon + maxLon) / 2.0;
      minLon := MaxReal(-180.0, mid - 10.0);
      maxLon := MinReal(180.0, mid + 10.0);
    }
    assert Box(minLat, minLon, maxLat, maxLon) == Zoom(Pad(hull));
    var left, bottom := ProjectX(minLon, w), ProjectY(minLat, h);
    var right, top := ProjectX(maxLon, w), ProjectY(maxLat, h);
    var l, t := MaxInt(0, Trunc(left)), MaxInt(0, Trunc(top));
    var r, b := MinInt(w, Trunc(right)), MinInt(h, Trunc(bottom));
    if r <= l || b <= t {
      v := FullWorld;
    } else {
      v := Crop(l, t, r, b);
    }
  }

  /** The crop rectangle of a box of the world covers the projection of
      every box of the world inside it, up to the part of a pixel that
      truncation cuts off on the right and at the bottom. */
  lemma CropCovers(z: Box, c: Box, w: nat, h: nat)
    requires InWorld(z) && InWorld(c) && Encloses(z, c)
    requires CropOf(z, w, h).Crop?
    ensures var v := CropOf(z, w, h);
      v.left as real <= ProjectX(c.lonMin, w) && ProjectX(c.lonMax, w) < v.right as real + 1.0 &&
      v.top as real <= ProjectY(c.latMax, h) && ProjectY(c.latMin, h) < v.bottom as real + 1.0
  {
    ProjectMonotone(c.latMax, z.latMax, z.lonMin, c.lonMin, w, h);
    ProjectMonotone(c.latMin, c.latMax, c.lonMin, c.lonMax, w, h);
    ProjectMonotone(z.latMin, c.latMin, c.lonMax, z.lonMax, w, h);
    ProjectInImage(z.latMax, z.lonMin, w, h);
    ProjectInImage(c.latMin, c.lonMax, w, h);
    TruncClampCovers(ProjectX(z.lonMin, w), ProjectX(c.lonMin, w), ProjectX(c.lonMax, w), ProjectX(z.lonMax, w), w);
    TruncClampCovers(ProjectY(z.latMax, h), ProjectY(c.latMax, h), ProjectY(c.latMin, h), ProjectY(z.latMin, h), h);
  }

  /** Truncating and clamping the ends of an interval of `[0, n]` keeps the
      inner interval `[lo, hi]` covered, up to a pixel at the far end. */
  lemma TruncClampCovers(outerLo: real, lo: real, hi: real, outerHi: real, n: nat)
    requires 0.0 <= outerLo <= lo <= hi <= outerHi && hi <= n as real
    ensures MaxInt(0, Trunc(outerLo)) as real <= lo
    ensures hi < MinInt(n, Trunc(outerHi)) as real + 1.0
  {
  }

  /** Padding a box around a box of the world still surrounds it, and
      lands in the world, wherever the outer box's own sides lie. */
  lemma PadAround(outer: Box, c: Box)
    requires Encloses(outer, c) && InWorld(c)
    ensures Encloses(Pad(outer), c) && InWorld(Pad(outer))
  {
  }

  /** The padded and zoomed hull of a set of boxes is a box of the world
      around each of its boxes that lies in the world, whatever the other
      boxes are. */
  lemma ZoomedHullEncloses(bs: set<Box>, c: Box)
    requires c in bs && InWorld(c)
    ensures InWorld(Zoom(Pad(Hull(bs)))) && Encloses(Zoom(Pad(Hull(bs))), c)
  {
    HullEncloses(bs);
    PadAround(Hull(bs), c);
    ZoomEncloses(Pad(Hull(bs)));
  }

  /** The crop shows every counted square of the world: the projection of
      each of them lies inside the crop rectangle, up to the part of a
      pixel that truncation cuts off on the right and at the bottom. */
  lemma CropShowsEverySquare(grids: set<string>, w: nat, h: nat, g: string)
    requires ViewOf(grids, w, h).Crop?
    requires g in grids && Counts(g) && InWorld(GridToLatLon(g).value)
    ensures var v, c := ViewOf(grids, w, h), GridToLatLon(g).value;
      v.left as real <= ProjectX(c.lonMin, w) && ProjectX(c.lonMax, w) < v.right as real + 1.0 &&
      v.top as real <= ProjectY(c.latMax, h) && ProjectY(c.latMin, h) < v.bottom as real + 1.0
  {
    var bs := CountedBoxes(grids);
    var c := GridToLatLon(g).value;
    assert c in bs;
    ZoomedHullEncloses(bs, c);
    CropCovers(Zoom(Pad(Hull(bs))), c, w, h);
  }

  /** A counted square that lies partly outside the world (a field letter
      past `R`, say) is never inside the padded and zoomed hull: the
      padding and the zoom are clamped to the world, so the crop cuts the
      square off. */
  lemma OffWorldSquareCut(grids: set<string>, g: string)
    requires g in grids && Counts(g) && !InWorld(GridToLatLon(g).value)
    ensures !Encloses(Zoom(Pad(Hull(CountedBoxes(grids)))), GridToLatLon(g).value)
  {
  }

  /** Such squares exist: `ZZ00` converts to a box north-east of the
      world's corner. */
  lemma OffWorldSquare()
    ensures Counts("ZZ00") && !InWorld(GridToLatLon("ZZ00").value)
  {
    assert Upper("ZZ00") == "ZZ00";
    StripKeeps("ZZ00");
  }

  /** With no token converting to a square, or only short ones, the whole
      world is shown. */
  lemma FullWorldWhenNothingCounts(grids: set<string>, w: nat, h: nat)
    requires !AnyFails(grids)
    requires forall g :: g in grids ==> !Counts(g)
    ensures ViewOf(grids, w, h) == FullWorld
  {
    assert CountedBoxes(grids) == {};
  }
}

=== FILE: storage.dfy ===
/** The monitor's persistent state (`Storage`): a cache of contact records
    keyed by call, date, time and band, the sorted list of grids already
    confirmed, and the bookkeeping dates used for incremental downloads. */
module Store {
  import opened Wrappers
  import opened Text

  /** One contact as the ADIF parser produces it: field names to values. */
  type Qso = map<string, string>

  /** `qso.get(field, default)`. */
  function Get(q: Qso, field: string, default: string): string
  {
    if field in q then q[field] else default
  }

  /** The natural key `CALL_QSO_DATE_TIME_ON_BAND`; a missing field is
      rendered as `None`, as Python's f-string renders it. */
  function QsoKey(q: Qso): (k: string)
    ensures k == JoinWith([Get(q, "CALL", "None"), Get(q, "QSO_DATE", "None"), Get(q, "TIME_ON", "None"), Get(q, "BAND", "None")], '_')
  {
    KeyJoin(Get(q, "CALL", "None"), Get(q, "QSO_DATE", "None"), Get(q, "TIME_ON", "None"), Get(q, "BAND", "None"));
    Get(q, "CALL", "None") + ("_" + (Get(q, "QSO_DATE", "None") + ("_" +
    (Get(q, "TIME_ON", "None") + ("_" + Get(q, "BAND", "None"))))))
  }

  lemma KeyJoin(c: string, d: string, t: string, b: string)
    ensures JoinWith([c, d, t, b], '_') == c + ("_" + (d + ("_" + (t + ("_" + b)))))
  {
    assert [c, d, t, b][1..] == [d, t, b] && [d, t, b][1..] == [t, b] && [t, b][1..] == [b];
    assert JoinWith([b], '_') == b;
    assert JoinWith([t, b], '_') == t + "_" + b;
    assert JoinWith([d, t, b], '_') == d + "_" + (t + "_" + b);
  }

  /** None of the four key fields contains the separator. */
  predicate KeyFieldsClean(q: Qso)
  {
    '_' !in Get(q, "CALL", "None") && '_' !in Get(q, "QSO_DATE", "None") &&
    '_' !in Get(q, "TIME_ON", "None") && '_' !in Get(q, "BAND", "None")
  }

  lemma SplitFour(c: string, d: string, t: string, b: string)
    requires '_' !in c && '_' !in d && '_' !in t && '_' !in b
    ensures SplitOn(c + ("_" + (d + ("_" + (t + ("_" + b))))), '_') == [c, d, t, b]
  {
    var s3 := t + ("_" + b);
    var s2 := d + ("_" + s3);
    assert [c] + ([d] + ([t] + [b])) == [c, d, t, b];
    assert SplitOn(b, '_') == [b];
    SplitAtFirst(t, '_', b);
    SplitAtFirst(d, '_', s3);
    SplitAtFirst(c, '_', s2);
  }

  /** Splitting a key on `_` gives back its four fields, as long as none of
      them contains `_`. */
  lemma QsoKeyParts(q: Qso)
    requires KeyFieldsClean(q)
    ensures SplitOn(QsoKey(q), '_') ==
      [Get(q, "CALL", "None"), Get(q, "QSO_DATE", "None"), Get(q, "TIME_ON", "None"), Get(q, "BAND", "None")]
  {
    SplitFour(Get(q, "CALL", "None"), Get(q, "QSO_DATE", "None"), Get(q, "TIME_ON", "None"), Get(q, "BAND", "None"));
  }

  /** Two records share a key exactly when they agree on the four key
      fields (for fields free of `_`). */
  lemma QsoKeyIdentifies(q1: Qso, q2: Qso)
    requires KeyFieldsClean(q1) && KeyFieldsClean(q2)
    ensures QsoKey(q1) == QsoKey(q2) <==>
      Get(q1, "CALL", "None") == Get(q2, "CALL", "None") &&
      Get(q1, "QSO_DATE", "None") == Get(q2, "QSO_DATE", "None") &&
      Get(q1, "TIME_ON", "None") == Get(q2, "TIME_ON", "None") &&
      Get(q1, "BAND", "None") == Get(q2, "BAND", "None")
  {
    QsoKeyParts(q1);
    QsoKeyParts(q2);
  }

  /** `g.strip().upper()[:4]`. */
  function Grid4(token: string): string
  {
    Take(Upper(Strip(token)), 4)
  }

  /** The tokens that name a grid, cut to their four-character square. */
  function GridsOfTokens(tokens: seq<string>): set<string>
  {
    set t | t in tokens && |Grid4(t)| == 4 :: Grid4(t)
  }

  /** Satellite contact: `PROP_MODE` is `SAT` in any case, or `SAT_NAME`
      is present and non-empty. */
  predicate IsSatellite(q: Qso)
  {
    Upper(Get(q, "PROP_MODE", "")) == "SAT" || Get(q, "SAT_NAME", "") != ""
  }

  /** Confirmed through LoTW: `QSL_RCVD` is `Y` in any case. */
  predicate IsConfirmed(q: Qso)
  {
    Upper(Get(q, "QSL_RCVD", "")) == "Y"
  }

  /** `_extract_grids`: the squares a satellite contact counts for; a
      contact that is not a satellite contact yields none. */
  function ExtractGrids(q: Qso): (r: set<string>)
    ensures !IsSatellite(q) ==> r == {}
  {
    if !IsSatellite(q) then {}
    else if Get(q, "VUCC_GRIDS", "") != "" then GridsOfTokens(SplitOn(Get(q, "VUCC_GRIDS", ""), ','))
    else GridsOfTokens([Get(q, "GRIDSQUARE", "")])
  }

  /** Every extracted grid is four characters with no lower-case letter, and
      a contact that is not a satellite contact yields none. */
  lemma ExtractGridsShape(q: Qso)
    ensures forall g :: g in ExtractGrids(q) ==> |g| == 4 && IsUpperCase(g)
    ensures !IsSatellite(q) ==> ExtractGrids(q) == {}
  {
    forall g | g in ExtractGrids(q)
      ensures |g| == 4 && IsUpperCase(g)
    {
      var tokens := if Get(q, "VUCC_GRIDS", "") != "" then SplitOn(Get(q, "VUCC_GRIDS", ""), ',') else [Get(q, "GRIDSQUARE", "")];
      var t :| t in tokens && |Grid4(t)| == 4 && Grid4(t) == g;
      UpperIsUpperCase(Strip(t));
    }
  }

  /** A non-empty `VUCC_GRIDS` decides alone: `GRIDSQUARE` is then ignored;
      an empty one leaves `GRIDSQUARE` to decide. */
  lemma VuccPriority(q: Qso, square: string)
    requires IsSatellite(q) && "GRIDSQUARE" !in q
    ensures Get(q, "VUCC_GRIDS", "") != "" ==> ExtractGrids(q["GRIDSQUARE" := square]) == ExtractGrids(q)
    ensures Get(q, "VUCC_GRIDS", "") == "" ==>
      ExtractGrids(q["GRIDSQUARE" := square]) == (if |Grid4(square)| == 4 then {Grid4(square)} else {})
  {
    var q' := q["GRIDSQUARE" := square];
    assert Get(q', "PROP_MODE", "") == Get(q, "PROP_MODE", "");
    assert Get(q', "SAT_NAME", "") == Get(q, "SAT_NAME", "");
    assert Get(q', "VUCC_GRIDS", "") == Get(q, "VUCC_GRIDS", "");
    assert Get(q', "GRIDSQUARE", "") == square;
  }

  /** A square as it is written in `VUCC_GRIDS`: two characters each an
      upper-case ASCII letter or a digit, four in all. */
  predicate IsSquareText(g: string)
  {
    |g| == 4 && forall j :: 0 <= j < 4 ==> IsUpperAscii(g[j]) || IsDigit(g[j])
  }

  /** A square already in its written form is its own four-character cut. */
  lemma Grid4Keeps(g: string)
    requires IsSquareText(g)
    ensures Grid4(g) == g
  {
    StripKeeps(g);
    UpperKeeps(g);
  }

  /** A satellite contact whose `VUCC_GRIDS` is a comma-separated list of
      squares yields exactly the squares listed. */
  lemma VuccListed(q: Qso, gs: seq<string>)
    requires IsSatellite(q) && |gs| >= 1
    requires forall i :: 0 <= i < |gs| ==> IsSquareText(gs[i])
    requires Get(q, "VUCC_GRIDS", "") == JoinWith(gs, ',')
    ensures ExtractGrids(q) == Elems(gs)
  {
    SquaresKept(gs);
    SplitJoin(gs, ',');
    JoinLength(gs, ',');
  }

  /** Squares in written form are kept as they are, and none holds a comma. */
  lemma SquaresKept(gs: seq<string>)
    requires forall i :: 0 <= i < |gs| ==> IsSquareText(gs[i])
    ensures forall i :: 0 <= i < |gs| ==> ',' !in gs[i]
    ensures GridsOfTokens(gs) == Elems(gs)
  {
    forall i | 0 <= i < |gs|
      ensures ',' !in gs[i] && Grid4(gs[i]) == gs[i]
    {
      Grid4Keeps(gs[i]);
    }
  }

  /** A join is at least as long as its first part. */
  lemma JoinLength(parts: seq<string>, sep: char)
    requires |parts| >= 1
    ensures |JoinWith(parts, sep)| >= |parts[0]|
  {
  }

  /** Two contacts that differ in call and date can share a key: the `_`
      that closes the call can be read as one inside the date, so the key
      of `_qso_key` is not unique for fields that contain `_`. */
  lemma KeyCollision(q: Qso, a: string, b: string, d: string)
    ensures QsoKey(q["CALL" := a + "_" + b]["QSO_DATE" := d]) == QsoKey(q["CALL" := a]["QSO_DATE" := b + "_" + d])
    ensures Get(q["CALL" := a + "_" + b]["QSO_DATE" := d], "CALL", "None") != Get(q["CALL" := a]["QSO_DATE" := b + "_" + d], "CALL", "None")
  {
    var q1, q2 := q["CALL" := a + "_" + b]["QSO_DATE" := d], q["CALL" := a]["QSO_DATE" := b + "_" + d];
    var t := Get(q, "TIME_ON", "None") + ("_" + Get(q, "BAND", "None"));
    assert Get(q1, "TIME_ON", "None") == Get(q2, "TIME_ON", "None") == Get(q, "TIME_ON", "None");
    assert Get(q1, "BAND", "None") == Get(q2, "BAND", "None") == Get(q, "BAND", "None");
    assert (a + "_" + b) + ("_" + (d + ("_" + t))) == a + ("_" + ((b + "_" + d) + ("_" + t)));
  }

  /** The elements of a list, as a set (`set(xs)`). */
  function Elems(s: seq<string>): set<string>
  {
    set x | x in s
  }

  predicate StrLt(a: string, b: string)
  {
    StrLe(a, b) && a != b
  }

  /** Ascending with no repeats: what `sorted(list(some_set))` returns. */
  predicate StrictlySorted(s: seq<string>)
  {
    forall i, j :: 0 <= i < j < |s| ==> StrLt(s[i], s[j])
  }

  /** The least element of a non-empty set of strings. */
  lemma MinOf(s: set<string>) returns (m: string)
    requires s != {}
    ensures m in s && forall y :: y in s ==> StrLe(m, y)
    decreases s
  {
    var x :| x in s;
    StrLeReflexive(x);
    if s == {x} {
      return x;
    }
    var rest := s - {x};
    var least := MinOf(rest);
    StrLeTotal(least, x);
    if StrLe(least, x) {
      return least;
    }
    forall y | y in rest
      ensures StrLe(x, y)
    {
      StrLeTransitive(x, least, y);
    }
    return x;
  }

  /** There is only one strictly sorted list of a given set of strings, so
      the two contracts below pin down `sorted(list(...))` exactly. */
  lemma {:induction false} SortedUnique(a: seq<string>, b: seq<string>)
    requires StrictlySorted(a) && StrictlySorted(b) && Elems(a) == Elems(b)
    ensures a == b
  {
    if a == [] {
      EmptyElems(a);
      EmptyElems(b);
    } else {
      assert a[0] in Elems(b);
      assert b != [];
      assert b[0] in Elems(a);
      var k :| 0 <= k < |b| && b[k] == a[0];
      var l :| 0 <= l < |a| && a[l] == b[0];
      if l > 0 {
        assert StrLt(a[0], a[l]);
      } else {
        StrLeReflexive(a[0]);
      }
      if k > 0 {
        assert StrLt(b[0], b[k]);
        StrLeAntisymmetric(a[0], b[0]);
        assert false;
      }
      assert Elems(a[1..]) == Elems(b[1..]) by {
        forall x | x in Elems(a[1..])
          ensures x in Elems(b[1..])
        {
          var i :| 1 <= i < |a| && a[i] == x;
          assert x != a[0];
          assert x in Elems(b);
          var j :| 0 <= j < |b| && b[j] == x;
          assert j != 0;
        }
        forall x | x in Elems(b[1..])
          ensures x in Elems(a[1..])
        {
          var j :| 1 <= j < |b| && b[j] == x;
          assert x != b[0];
          assert x in Elems(a);
          var i :| 0 <= i < |a| && a[i] == x;
          assert i != 0;
        }
      }
      SortedUnique(a[1..], b[1..]);
      assert a == [a[0]] + a[1..];
      assert b == [b[0]] + b[1..];
    }
  }

  /** Everything in `r` comes before everything in `rest`. */
  predicate AllBefore(r: seq<string>, rest: set<string>)
  {
    forall i, x :: 0 <= i < |r| && x in rest ==> StrLt(r[i], x)
  }

  /** Appending the least remaining string keeps the partial output sorted. */
  lemma SortedAppendLeast(r: seq<string>, rest: set<string>, m: string)
    requires StrictlySorted(r) && AllBefore(r, rest)
    requires m in rest && forall y :: y in rest ==> StrLe(m, y)
    requires Elems(r) !! rest
    ensures StrictlySorted(r + [m]) && AllBefore(r + [m], rest - {m})
    ensures Elems(r + [m]) + (rest - {m}) == Elems(r) + rest
    ensures Elems(r + [m]) !! rest - {m}
  {
    assert Elems(r + [m]) == Elems(r) + {m};
    var r' := r + [m];
    forall i, j | 0 <= i < j < |r'|
      ensures StrLt(r'[i], r'[j])
    {
      if j < |r| {
        assert r'[i] == r[i] && r'[j] == r[j];
      } else {
        assert r'[i] == r[i];
      }
    }
    forall i, x | 0 <= i < |r'| && x in rest - {m}
      ensures StrLt(r'[i], x)
    {
      if i < |r| {
        assert r'[i] == r[i];
      }
    }
  }

  /** A list is empty exactly when its set of elements is. */
  lemma EmptyElems(r: seq<string>)
    ensures r == [] <==> Elems(r) == {}
  {
    if r != [] {
      assert r[0] in Elems(r);
    }
  }

  /** `sorted(list(s))`. */
  method SortedList(s: set<string>) returns (r: seq<string>)
    ensures StrictlySorted(r) && Elems(r) == s
  {
    r := [];
    var rest := s;
    while rest != {}
      invariant Elems(r) + rest == s && Elems(r) !! rest
      invariant StrictlySorted(r) && AllBefore(r, rest)
      decreases |rest|
    {
      ghost var least := MinOf(rest);
      var m :| m in rest && forall y :: y in rest ==> StrLe(m, y);
      SortedAppendLeast(r, rest, m);
      r := r + [m];
      rest := rest - {m};
    }
  }

  /** The cache after storing every batch record under its key, in order:
      no key is lost, every record's key is present, and the last
      record is stored under its key. */
  function Overwrite(cache: map<string, Qso>, batch: seq<Qso>): (r: map<string, Qso>)
    ensures cache.Keys <= r.Keys
    ensures forall i :: 0 <= i < |batch| ==> QsoKey(batch[i]) in r
    ensures batch != [] ==> r[QsoKey(batch[|batch| - 1])] == batch[|batch| - 1]
    decreases |batch|
  {
    if batch == [] then cache
    else
      var last, init := batch[|batch| - 1], batch[..|batch| - 1];
      assert forall i :: 0 <= i < |init| ==> init[i] == batch[i];
      Overwrite(cache, init)[QsoKey(last) := last]
  }

  lemma OverwriteStep(cache: map<string, Qso>, batch: seq<Qso>, i: nat)
    requires i < |batch|
    ensures Overwrite(cache, batch[..i + 1]) == Overwrite(cache, batch[..i])[QsoKey(batch[i]) := batch[i]]
  {
    assert batch[..i + 1][..i] == batch[..i];
  }

  /** The loop of `merge_qsos`: every record is stored under its key, and
      the grids of the confirmed records not already known are collected. */
  method MergeBatch(cache0: map<string, Qso>, batch: seq<Qso>, known: set<string>)
    returns (cache: map<string, Qso>, newly: set<string>)
    ensures cache == Overwrite(cache0, batch)
    ensures newly == ConfirmedGrids(batch) - known
  {
    cache := cache0;
    newly := {};
    for i := 0 to |batch|
      invariant cache == Overwrite(cache0, batch[..i])
      invariant newly == ConfirmedGrids(batch[..i]) - known
    {
      var qso := batch[i];
      var key := QsoKey(qso);
      var added := newly;
      if IsConfirmed(qso) {
        added := AddUnknown(newly, ExtractGrids(qso), known);
      }
      MergeStep(cache0, batch, i, cache, key, known, newly, added);
      cache := cache[key := qso];
      newly := added;
    }
    assert batch[..|batch|] == batch;
  }

  /** One turn of the `merge_qsos` loop keeps the cache and the new grids in
      step with the batch prefix. */
  lemma MergeStep(cache0: map<string, Qso>, batch: seq<Qso>, i: nat, cache: map<string, Qso>, key: string,
                  known: set<string>, newly: set<string>, added: set<string>)
    requires i < |batch| && key == QsoKey(batch[i])
    requires cache == Overwrite(cache0, batch[..i]) && newly == ConfirmedGrids(batch[..i]) - known
    requires added == if IsConfirmed(batch[i]) then newly + (ExtractGrids(batch[i]) - known) else newly
    ensures cache[key := batch[i]] == Overwrite(cache0, batch[..i + 1])
    ensures added == ConfirmedGrids(batch[..i + 1]) - known
  {
    OverwriteStep(cache0, batch, i);
    ConfirmedStep(batch, i);
  }

  /** The index of the last batch record whose key is `k`, or -1. */
  function LastKeyed(batch: seq<Qso>, k: string): (r: int)
    ensures -1 <= r < |batch|
    ensures r >= 0 ==> QsoKey(batch[r]) == k
    decreases |batch|
  {
    if batch == [] then -1
    else if QsoKey(batch[|batch| - 1]) == k then |batch| - 1
    else LastKeyed(batch[..|batch| - 1], k)
  }

  lemma {:induction false} LastKeyedIsLast(batch: seq<Qso>, k: string)
    ensures forall j :: LastKeyed(batch, k) < j < |batch| ==> QsoKey(batch[j]) != k
    decreases |batch|
  {
    if batch != [] && QsoKey(batch[|batch| - 1]) != k {
      var init := batch[..|batch| - 1];
      LastKeyedIsLast(init, k);
      forall j | LastKeyed(batch, k) < j < |batch| - 1
        ensures QsoKey(batch[j]) != k
      {
        assert batch[j] == init[j];
      }
    }
  }

  /** Last writer wins: a key the batch mentions holds the last batch record
      with that key; every other cached entry is unchanged; no other key
      appears. */
  lemma {:induction false} OverwriteLookup(cache: map<string, Qso>, batch: seq<Qso>, k: string)
    ensures k in Overwrite(cache, batch) <==> k in cache || LastKeyed(batch, k) >= 0
    ensures LastKeyed(batch, k) >= 0 ==> Overwrite(cache, batch)[k] == batch[LastKeyed(batch, k)]
    ensures LastKeyed(batch, k) < 0 && k in cache ==> Overwrite(cache, batch)[k] == cache[k]
    decreases |batch|
  {
    if batch != [] {
      var init := batch[..|batch| - 1];
      OverwriteLookup(cache, init, k);
      if LastKeyed(batch, k) >= 0 && QsoKey(batch[|batch| - 1]) != k {
        assert batch[LastKeyed(batch, k)] == init[LastKeyed(init, k)];
      }
    }
  }

  /** The grids of the confirmed records of a batch. */
  function ConfirmedGrids(batch: seq<Qso>): set<string>
    decreases |batch|
  {
    if batch == [] then {}
    else
      var last := batch[|batch| - 1];
      ConfirmedGrids(batch[..|batch| - 1]) + (if IsConfirmed(last) then ExtractGrids(last) else {})
  }

  lemma ConfirmedStep(batch: seq<Qso>, i: nat)
    requires i < |batch|
    ensures ConfirmedGrids(batch[..i + 1]) ==
      ConfirmedGrids(batch[..i]) + (if IsConfirmed(batch[i]) then ExtractGrids(batch[i]) else {})
  {
    assert batch[..i + 1][..i] == batch[..i];
  }

  /** `ConfirmedGrids` is the union of `ExtractGrids` over the confirmed
      records, wherever they sit in the batch. */
  lemma {:induction false} ConfirmedGridsMember(batch: seq<Qso>, g: string)
    ensures g in ConfirmedGrids(batch) <==>
      exists i :: 0 <= i < |batch| && IsConfirmed(batch[i]) && g in ExtractGrids(batch[i])
    decreases |batch|
  {
    if batch != [] {
      var init := batch[..|batch| - 1];
      ConfirmedGridsMember(init, g);
      if g in ConfirmedGrids(init) {
        var i :| 0 <= i < |init| && IsConfirmed(init[i]) && g in ExtractGrids(init[i]);
        assert batch[i] == init[i];
      }
      if exists i :: 0 <= i < |batch| && IsConfirmed(batch[i]) && g in ExtractGrids(batch[i]) {
        var i :| 0 <= i < |batch| && IsConfirmed(batch[i]) && g in ExtractGrids(batch[i]);
        if i < |batch| - 1 {
          assert init[i] == batch[i];
        }
      }
    }
  }

  /** The grids a merge reports: confirmed in the batch, not yet known. */
  function NewlyConfirmed(known: seq<string>, batch: seq<Qso>): set<string>
  {
    ConfirmedGrids(batch) - Elems(known)
  }

  /** A confirmed record counts even when a later record with the same key
      that is not confirmed replaces it in the cache. */
  lemma ConfirmationNotUndone(cache: map<string, Qso>, known: seq<string>, batch: seq<Qso>, i: nat, j: nat)
    requires i < j < |batch| && QsoKey(batch[i]) == QsoKey(batch[j]) && LastKeyed(batch, QsoKey(batch[j])) == j
    requires IsConfirmed(batch[i]) && !IsConfirmed(batch[j])
    ensures QsoKey(batch[j]) in Overwrite(cache, batch) && Overwrite(cache, batch)[QsoKey(batch[j])] == batch[j]
    ensures ExtractGrids(batch[i]) - Elems(known) <= NewlyConfirmed(known, batch)
  {
    OverwriteLookup(cache, batch, QsoKey(batch[j]));
    forall g | g in ExtractGrids(batch[i])
      ensures g in ConfirmedGrids(batch)
    {
      ConfirmedGridsMember(batch, g);
    }
  }

  /** Merging the same batch again stores nothing new and finds no new grid,
      once the known grids include what the first merge reported. */
  lemma MergeIdempotent(cache: map<string, Qso>, known: seq<string>, known2: seq<string>, batch: seq<Qso>)
    requires Elems(known) + NewlyConfirmed(known, batch) <= Elems(known2)
    ensures Overwrite(Overwrite(cache, batch), batch) == Overwrite(cache, batch)
    ensures NewlyConfirmed(known2, batch) == {}
  {
    var once := Overwrite(cache, batch);
    var twice := Overwrite(once, batch);
    forall k
      ensures (k in twice <==> k in once) && (k in twice ==> twice[k] == once[k])
    {
      OverwriteLookup(cache, batch, k);
      OverwriteLookup(once, batch, k);
    }
  }

  /** The inner loop of `merge_qsos`: adds each of `grids` that is not in
      `known` to `newly`. */
  method AddUnknown(newly: set<string>, grids: set<string>, known: set<string>) returns (r: set<string>)
    ensures r == newly + (grids - known)
  {
    r := newly;
    var rest := grids;
    while rest != {}
      invariant rest <= grids
      invariant r == newly + ((grids - rest) - known)
      decreases |rest|
    {
      var g :| g in rest;
      if g !in known {
        r := r + {g};
      }
      rest := rest - {g};
    }
  }

  /** The keys of the cached contacts, among `keys`, that count for `g`. */
  function Holders(cache: map<string, Qso>, keys: set<string>, g: string): set<string>
  {
    set k | k in keys && k in cache && g in ExtractGrids(cache[k])
  }

  /** The calls of the cached contacts under `keys`, `UNKNOWN` where a
      contact has none. */
  function CallsOf(cache: map<string, Qso>, keys: set<string>): set<string>
  {
    set k | k in keys && k in cache :: Get(cache[k], "CALL", "UNKNOWN")
  }

  lemma CallsOfAdd(cache: map<string, Qso>, keys: set<string>, k: string)
    requires k in cache
    ensures CallsOf(cache, keys + {k}) == CallsOf(cache, keys) + {Get(cache[k], "CALL", "UNKNOWN")}
  {
  }

  /** The calls of the contacts under `keys` that count for `g`. */
  function HolderCalls(cache: map<string, Qso>, keys: set<string>, g: string): set<string>
  {
    CallsOf(cache, Holders(cache, keys, g))
  }

  /** Per-grid statistics: how many cached contacts count for the grid and
      with which calls. */
  datatype GridStats = GridStats(count: nat, calls: set<string>)

  /** The statistics of the contacts under `keys`. */
  function StatsOf(cache: map<string, Qso>, keys: set<string>, g: string): GridStats
  {
    GridStats(|Holders(cache, keys, g)|, HolderCalls(cache, keys, g))
  }

  /** Adding the contact under `k` to the counted ones adds one to the count
      and its call to the calls of each of its grids, and changes nothing
      for the other grids. */
  lemma StatsAdd(cache: map<string, Qso>, keys: set<string>, k: string, g: string)
    requires k in cache && k !in keys
    ensures g in ExtractGrids(cache[k]) ==>
      StatsOf(cache, keys + {k}, g) ==
        GridStats(StatsOf(cache, keys, g).count + 1, StatsOf(cache, keys, g).calls + {Get(cache[k], "CALL", "UNKNOWN")})
    ensures g !in ExtractGrids(cache[k]) ==> StatsOf(cache, keys + {k}, g) == StatsOf(cache, keys, g)
  {
    if g in ExtractGrids(cache[k]) {
      HoldersAddHit(cache, keys, k, g);
      CallsOfAdd(cache, Holders(cache, keys, g), k);
    } else {
      HoldersAddMiss(cache, keys, k, g);
    }
  }

  lemma HoldersAddHit(cache: map<string, Qso>, keys: set<string>, k: string, g: string)
    requires k in cache && k !in keys && g in ExtractGrids(cache[k])
    ensures Holders(cache, keys + {k}, g) == Holders(cache, keys, g) + {k}
    ensures |Holders(cache, keys + {k}, g)| == |Holders(cache, keys, g)| + 1
  {
    assert Holders(cache, keys + {k}, g) == Holders(cache, keys, g) + {k};
  }

  lemma HoldersAddMiss(cache: map<string, Qso>, keys: set<string>, k: string, g: string)
    requires k in cache && g !in ExtractGrids(cache[k])
    ensures Holders(cache, keys + {k}, g) == Holders(cache, keys, g)
  {
  }

  /** A grid has at least as many counted contacts as distinct calls. */
  lemma {:induction false} CallsAtMostCount(cache: map<string, Qso>, keys: set<string>, g: string)
    ensures |StatsOf(cache, keys, g).calls| <= StatsOf(cache, keys, g).count
    decreases keys
  {
    var hs := Holders(cache, keys, g);
    if hs != {} {
      var k :| k in hs;
      var rest := keys - {k};
      CallsAtMostCount(cache, rest, g);
      StatsAdd(cache, rest, k, g);
      assert keys == rest + {k};
    }
  }

  /** Moving one element from the pending part of a set to the done part. */
  lemma MoveOne(seen: set<string>, rest: set<string>, all: set<string>, x: string)
    requires seen + rest == all && seen !! rest && x in rest
    ensures (seen + {x}) + (rest - {x}) == all && (seen + {x}) !! (rest - {x})
    ensures |rest - {x}| < |rest|
  {
  }

  /** Counting the contact under `k` in grid `g`: a fresh entry starts
      from zero, an existing one is incremented. */
  lemma CountStep(cache: map<string, Qso>, done: set<string>, k: string, g: string, entry: GridStats)
    requires k in cache && k !in done && g in ExtractGrids(cache[k])
    requires entry == if Holders(cache, done, g) == {} then GridStats(0, {}) else StatsOf(cache, done, g)
    ensures GridStats(entry.count + 1, entry.calls + {Get(cache[k], "CALL", "UNKNOWN")}) == StatsOf(cache, done + {k}, g)
  {
    StatsAdd(cache, done, k, g);
  }

  lemma CountInvariantStep(stats: map<string, GridStats>, cache: map<string, Qso>, done: set<string>, k: string,
                           r: map<string, GridStats>, seen: set<string>, g: string,
                           call: string, entry: GridStats, counted: GridStats)
    requires k in cache && k !in done && g in ExtractGrids(cache[k]) && g !in seen
    requires forall g :: g in stats <==> Holders(cache, done, g) != {}
    requires forall g :: g in stats ==> stats[g] == StatsOf(cache, done, g)
    requires forall g :: g in r <==> g in stats || g in seen
    requires forall g :: g in r ==> r[g] == if g in seen then StatsOf(cache, done + {k}, g) else stats[g]
    requires call == Get(cache[k], "CALL", "UNKNOWN")
    requires entry == if g in r then r[g] else GridStats(0, {})
    requires counted == GridStats(entry.count + 1, entry.calls + {call})
    ensures forall h :: h in r[g := counted] <==> h in stats || h in seen + {g}
    ensures forall h :: h in r[g := counted] ==>
      r[g := counted][h] == if h in seen + {g} then StatsOf(cache, done + {k}, h) else stats[h]
  {
    CountStep(cache, done, k, g, entry);
  }

  /** The body of the `get_stats` loop for the contact under `k`: counts it
      in each of its grids, creating the entry of a grid seen first. */
  method CountContact(stats: map<string, GridStats>, cache: map<string, Qso>, done: set<string>, k: string)
    returns (r: map<string, GridStats>)
    requires k in cache && k !in done
    requires forall g :: g in stats <==> Holders(cache, done, g) != {}
    requires forall g :: g in stats ==> stats[g] == StatsOf(cache, done, g)
    ensures forall g :: g in r <==> Holders(cache, done + {k}, g) != {}
    ensures forall g :: g in r ==> r[g] == StatsOf(cache, done + {k}, g)
  {
    var grids := ExtractGrids(cache[k]);
    var call := Get(cache[k], "CALL", "UNKNOWN");
    r := stats;
    var rest := grids;
    ghost var seen: set<string> := {};
    while rest != {}
      invariant seen + rest == grids && seen !! rest
      invariant forall g :: g in r <==> g in stats || g in seen
      invariant forall g :: g in r ==> r[g] == if g in seen then StatsOf(cache, done + {k}, g) else stats[g]
      decreases |rest|
    {
      var g :| g in rest;
      var entry := if g in r then r[g] else GridStats(0, {});
      var counted := GridStats(entry.count + 1, entry.calls + {call});
      CountInvariantStep(stats, cache, done, k, r, seen, g, call, entry, counted);
      r := r[g := counted];
      MoveOne(seen, rest, grids, g);
      rest := rest - {g};
      seen := seen + {g};
    }
    forall g | true
      ensures g in r <==> Holders(cache, done + {k}, g) != {}
      ensures g in r ==> r[g] == StatsOf(cache, done + {k}, g)
    {
      StatsAdd(cache, done, k, g);
      if g in grids {
        assert k in Holders(cache, done + {k}, g);
      }
    }
  }

  /** Python's `<=` on the `(QSO_DATE, TIME_ON)` sort keys of two contacts,
      a missing field reading as the empty string. */
  predicate TimeLe(a: Qso, b: Qso)
  {
    var da, db := Get(a, "QSO_DATE", ""), Get(b, "QSO_DATE", "");
    StrLt(da, db) || (da == db && StrLe(Get(a, "TIME_ON", ""), Get(b, "TIME_ON", "")))
  }

  lemma TimeLeTotal(a: Qso, b: Qso)
    ensures TimeLe(a, b) || TimeLe(b, a)
  {
    StrLeTotal(Get(a, "QSO_DATE", ""), Get(b, "QSO_DATE", ""));
    StrLeTotal(Get(a, "TIME_ON", ""), Get(b, "TIME_ON", ""));
  }

  lemma TimeLeReflexive(a: Qso)
    ensures TimeLe(a, a)
  {
    StrLeReflexive(Get(a, "TIME_ON", ""));
  }

  lemma TimeLeTransitive(a: Qso, b: Qso, c: Qso)
    requires TimeLe(a, b) && TimeLe(b, c)
    ensures TimeLe(a, c)
  {
    var da, db, dc := Get(a, "QSO_DATE", ""), Get(b, "QSO_DATE", ""), Get(c, "QSO_DATE", "");
    StrLeReflexive(da);
    StrLeReflexive(db);
    StrLeTransitive(da, db, dc);
    if da == dc && da != db {
      StrLeAntisymmetric(da, db);
    }
    if da == db && db == dc {
      StrLeTransitive(Get(a, "TIME_ON", ""), Get(b, "TIME_ON", ""), Get(c, "TIME_ON", ""));
    }
  }

  predicate SortedByTime(s: seq<Qso>)
  {
    forall i, j :: 0 <= i < j < |s| ==> TimeLe(s[i], s[j])
  }

  /** Inserts `x` after every element that does not sort after it. */
  function InsertByTime(x: Qso, s: seq<Qso>): seq<Qso>
    decreases |s|
  {
    if s == [] then [x]
    else if TimeLe(s[|s| - 1], x) then s + [x]
    else InsertByTime(x, s[..|s| - 1]) + [s[|s| - 1]]
  }

  lemma {:induction false} InsertByTimeElements(x: Qso, s: seq<Qso>)
    ensures multiset(InsertByTime(x, s)) == multiset(s) + multiset{x}
    decreases |s|
  {
    if s != [] && !TimeLe(s[|s| - 1], x) {
      InsertByTimeElements(x, s[..|s| - 1]);
      assert s == s[..|s| - 1] + [s[|s| - 1]];
    }
  }

  lemma {:induction false} InsertByTimeSorted(x: Qso, s: seq<Qso>)
    requires SortedByTime(s)
    ensures SortedByTime(InsertByTime(x, s))
    decreases |s|
  {
    if s == [] {
    } else if TimeLe(s[|s| - 1], x) {
      var r := s + [x];
      forall i, j | 0 <= i < j < |r|
        ensures TimeLe(r[i], r[j])
      {
        if j == |s| && i < |s| - 1 {
          TimeLeTransitive(s[i], s[|s| - 1], x);
        }
      }
    } else {
      var init, last := s[..|s| - 1], s[|s| - 1];
      InsertByTimeSorted(x, init);
      InsertByTimeElements(x, init);
      TimeLeTotal(last, x);
      var front := InsertByTime(x, init);
      var r := front + [last];
      forall i, j | 0 <= i < j < |r|
        ensures TimeLe(r[i], r[j])
      {
        if j == |front| {
          assert r[i] in multiset(init) + multiset{x} by {
            assert r[i] == front[i];
            assert front[i] in multiset(front);
          }
          if r[i] != x {
            var k :| 0 <= k < |init| && init[k] == r[i];
            assert s[k] == init[k];
          }
        } else {
          assert r[i] == front[i] && r[j] == front[j];
        }
      }
    }
  }

  /** `list.sort(key=lambda q: (QSO_DATE, TIME_ON))`, as an insertion sort. */
  function SortByTime(s: seq<Qso>): seq<Qso>
    decreases |s|
  {
    if s == [] then [] else InsertByTime(s[|s| - 1], SortByTime(s[..|s| - 1]))
  }

  /** The sort orders by `(QSO_DATE, TIME_ON)` and keeps every contact. */
  lemma {:induction false} SortByTimeCorrect(s: seq<Qso>)
    ensures SortedByTime(SortByTime(s)) && multiset(SortByTime(s)) == multiset(s)
    decreases |s|
  {
    if s != [] {
      SortByTimeCorrect(s[..|s| - 1]);
      InsertByTimeSorted(s[|s| - 1], SortByTime(s[..|s| - 1]));
      InsertByTimeElements(s[|s| - 1], SortByTime(s[..|s| - 1]));
      assert s == s[..|s| - 1] + [s[|s| - 1]];
    }
  }

  /** A contact that labels grid `g`: confirmed, and counting for `g`. */
  predicate Candidate(q: Qso, g: string)
  {
    IsConfirmed(q) && g in ExtractGrids(q)
  }

  /** `labels[g] = v` for every `g` in `gs`. */
  function Assign(labels: map<string, string>, gs: set<string>, v: string): map<string, string>
  {
    map g | g in labels.Keys + gs :: if g in gs then v else labels[g]
  }

  /** The labels after the `get_grid_labels` loop has visited `qs` in order. */
  function LabelsOf(qs: seq<Qso>): map<string, string>
    decreases |qs|
  {
    if qs == [] then map[]
    else
      var q := qs[|qs| - 1];
      var before := LabelsOf(qs[..|qs| - 1]);
      if IsConfirmed(q) then Assign(before, ExtractGrids(q), Get(q, "CALL", "?")) else before
  }

  /** The index of the last contact of `qs` that labels `g`, or -1. */
  function LastCandidate(qs: seq<Qso>, g: string): (r: int)
    ensures -1 <= r < |qs|
    ensures r >= 0 ==> Candidate(qs[r], g)
    decreases |qs|
  {
    if qs == [] then -1
    else if Candidate(qs[|qs| - 1], g) then |qs| - 1
    else LastCandidate(qs[..|qs| - 1], g)
  }

  /** Each grid is labelled with the call of the last contact that labels
      it (`?` when that contact has no call), and only such grids are. */
  lemma {:induction false} LabelsOfLookup(qs: seq<Qso>, g: string)
    ensures g in LabelsOf(qs) <==> LastCandidate(qs, g) >= 0
    ensures g in LabelsOf(qs) ==> LabelsOf(qs)[g] == Get(qs[LastCandidate(qs, g)], "CALL", "?")
    decreases |qs|
  {
    if qs != [] {
      var init := qs[..|qs| - 1];
      LabelsOfLookup(init, g);
      if LastCandidate(qs, g) >= 0 && !Candidate(qs[|qs| - 1], g) {
        assert qs[LastCandidate(qs, g)] == init[LastCandidate(init, g)];
      }
    }
  }

  /** In a list sorted by time, the last contact labelling `g` is one of the
      latest. */
  lemma {:induction false} LastCandidateLatest(qs: seq<Qso>, g: string, i: nat)
    requires SortedByTime(qs) && i < |qs| && Candidate(qs[i], g)
    ensures LastCandidate(qs, g) >= i
    ensures TimeLe(qs[i], qs[LastCandidate(qs, g)])
    decreases |qs|
  {
    if !Candidate(qs[|qs| - 1], g) {
      var init := qs[..|qs| - 1];
      assert init[i] == qs[i];
      LastCandidateLatest(init, g, i);
    } else if i < |qs| - 1 {
    } else {
      TimeLeReflexive(qs[i]);
    }
  }

  /** `q` is a stored contact labelling `g` and no other one is later. */
  predicate Latest(values: set<Qso>, q: Qso, g: string)
  {
    q in values && Candidate(q, g) && forall q' :: q' in values && Candidate(q', g) ==> TimeLe(q', q)
  }

  /** Visiting the stored contacts in time order labels exactly the grids of
      the confirmed contacts, each with the call of a latest one. */
  lemma LabelsSpec(values: set<Qso>, qs: seq<Qso>)
    requires SortedByTime(qs) && forall q :: q in qs <==> q in values
    ensures forall g :: g in LabelsOf(qs) <==> exists q :: q in values && Candidate(q, g)
    ensures forall g :: g in LabelsOf(qs) ==> exists q :: Latest(values, q, g) && LabelsOf(qs)[g] == Get(q, "CALL", "?")
  {
    forall g
      ensures g in LabelsOf(qs) <==> exists q :: q in values && Candidate(q, g)
      ensures g in LabelsOf(qs) ==> exists q :: Latest(values, q, g) && LabelsOf(qs)[g] == Get(q, "CALL", "?")
    {
      LabelsOfLookup(qs, g);
      if exists q :: q in values && Candidate(q, g) {
        var q :| q in values && Candidate(q, g);
        var i :| 0 <= i < |qs| && qs[i] == q;
        LastCandidateLatest(qs, g, i);
      }
      if g in LabelsOf(qs) {
        var last := qs[LastCandidate(qs, g)];
        forall q' | q' in values && Candidate(q', g)
          ensures TimeLe(q', last)
        {
          var i :| 0 <= i < |qs| && qs[i] == q';
          LastCandidateLatest(qs, g, i);
        }
        assert Latest(values, last, g);
      }
    }
  }

  lemma LabelsStep(qs: seq<Qso>, i: nat)
    requires i < |qs|
    ensures LabelsOf(qs[..i + 1]) ==
      if IsConfirmed(qs[i]) then Assign(LabelsOf(qs[..i]), ExtractGrids(qs[i]), Get(qs[i], "CALL", "?"))
      else LabelsOf(qs[..i])
  {
    assert qs[..i + 1][..i] == qs[..i];
  }

  /** The inner loop of `get_grid_labels`: `labels[g] = call` for each grid. */
  method AssignAll(labels: map<string, string>, grids: set<string>, call: string) returns (r: map<string, string>)
    ensures r == Assign(labels, grids, call)
  {
    r := labels;
    var rest := grids;
    ghost var seen: set<string> := {};
    while rest != {}
      invariant seen + rest == grids && seen !! rest
      invariant r == Assign(labels, seen, call)
      decreases |rest|
    {
      var g :| g in rest;
      AssignOne(labels, seen, g, call);
      r := r[g := call];
      MoveOne(seen, rest, grids, g);
      rest := rest - {g};
      seen := seen + {g};
    }
  }

  lemma AssignOne(labels: map<string, string>, seen: set<string>, g: string, v: string)
    ensures Assign(labels, seen, v)[g := v] == Assign(labels, seen + {g}, v)
  {
  }

  /** `qs` lists the values of `cache` under the distinct keys `order`,
      one entry per key. */
  predicate ListedBy(cache: map<string, Qso>, qs: seq<Qso>, order: seq<string>)
  {
    && |qs| == |order| == |Elems(order)|
    && (forall i, j :: 0 <= i < j < |order| ==> order[i] != order[j])
    && (forall i :: 0 <= i < |order| ==> order[i] in cache && qs[i] == cache[order[i]])
  }

  /** `list(cache.values())`: one entry per key of the cache, in some
      order of the keys; `order` is that order. */
  method ListValues(cache: map<string, Qso>) returns (qs: seq<Qso>, ghost order: seq<string>)
    ensures |qs| == |order| == |cache.Keys|
    ensures Elems(order) == cache.Keys
    ensures forall i, j :: 0 <= i < j < |order| ==> order[i] != order[j]
    ensures forall i :: 0 <= i < |order| ==> order[i] in cache && qs[i] == cache[order[i]]
    ensures forall q :: q in qs <==> q in cache.Values
  {
    qs, order := [], [];
    var rest := cache.Keys;
    while rest != {}
      invariant Elems(order) + rest == cache.Keys && Elems(order) !! rest
      invariant ListedBy(cache, qs, order)
      decreases |rest|
    {
      var k :| k in rest;
      MoveOne(Elems(order), rest, cache.Keys, k);
      ListStep(cache, qs, order, k);
      qs, order := qs + [cache[k]], order + [k];
      rest := rest - {k};
    }
    ValuesListed(cache, qs, order);
  }

  /** Listing one more key keeps `ListedBy`. */
  lemma ListStep(cache: map<string, Qso>, qs: seq<Qso>, order: seq<string>, k: string)
    requires ListedBy(cache, qs, order) && k in cache && k !in Elems(order)
    ensures Elems(order + [k]) == Elems(order) + {k}
    ensures ListedBy(cache, qs + [cache[k]], order + [k])
  {
    assert Elems(order + [k]) == Elems(order) + {k};
  }

  /** A list with one entry per key holds exactly the values of the map. */
  lemma ValuesListed(cache: map<string, Qso>, qs: seq<Qso>, order: seq<string>)
    requires |qs| == |order| && Elems(order) == cache.Keys
    requires forall i :: 0 <= i < |order| ==> order[i] in cache && qs[i] == cache[order[i]]
    ensures forall q :: q in qs <==> q in cache.Values
  {
    forall q | q in cache.Values
      ensures q in qs
    {
      var k :| k in cache && cache[k] == q;
      var i :| 0 <= i < |order| && order[i] == k;
      assert qs[i] == q;
    }
  }

  class Storage {
    var knownGrids: seq<string>
    var qsoCache: map<string, Qso>
    var lastRun: Option<string>
    var lastQsoDate: Option<string>
    var lastSyncDate: Option<string>

    /** The state of a monitor with no state file yet. */
    constructor Fresh()
      ensures knownGrids == [] && qsoCache == map[] && lastRun == None
      ensures lastQsoDate == Some("1900-01-01") && lastSyncDate == None
      ensures LastQsoDate() == "1900-01-01" && LastSyncDate() == "1900-01-01"
    {
      knownGrids := [];
      qsoCache := map[];
      lastRun := None;
      lastQsoDate := Some("1900-01-01");
      lastSyncDate := None;
    }

    /** A state document read back from disk; a missing `known_grids` or
        `qso_cache` reads as empty, a missing date as `None`. */
    constructor Loaded(known: seq<string>, cache: map<string, Qso>, run: Option<string>,
                       qsoDate: Option<string>, syncDate: Option<string>)
      ensures knownGrids == known && qsoCache == cache && lastRun == run
      ensures lastQsoDate == qsoDate && lastSyncDate == syncDate
    {
      knownGrids := known;
      qsoCache := cache;
      lastRun := run;
      lastQsoDate := qsoDate;
      lastSyncDate := syncDate;
    }

    /** The `last_qso_date` property, `1900-01-01` when absent. */
    function LastQsoDate(): (r: string)
      reads this
      ensures lastQsoDate.None? ==> r == "1900-01-01"
      ensures lastQsoDate.Some? ==> r == lastQsoDate.value
    {
      if lastQsoDate.Some? then lastQsoDate.value else "1900-01-01"
    }

    /** The `last_sync_date` property, `1900-01-01` when absent. */
    function LastSyncDate(): (r: string)
      reads this
      ensures lastSyncDate.None? ==> r == "1900-01-01"
      ensures lastSyncDate.Some? ==> r == lastSyncDate.value
    {
      if lastSyncDate.Some? then lastSyncDate.value else "1900-01-01"
    }

    /** The `known_grids` property and `get_confirmed_grids`. */
    function KnownGrids(): (r: set<string>)
      reads this
      ensures forall g :: g in r <==> g in knownGrids
    {
      Elems(knownGrids)
    }

    method SetLastQsoDate(value: string)
      modifies this
      ensures LastQsoDate() == value && lastQsoDate == Some(value)
      ensures knownGrids == old(knownGrids) && qsoCache == old(qsoCache) && lastRun == old(lastRun)
      ensures lastSyncDate == old(lastSyncDate)
    {
      lastQsoDate := Some(value);
    }

    method SetLastSyncDate(value: string)
      modifies this
      ensures LastSyncDate() == value && lastSyncDate == Some(value)
      ensures knownGrids == old(knownGrids) && qsoCache == old(qsoCache) && lastRun == old(lastRun)
      ensures lastQsoDate == old(lastQsoDate)
    {
      lastSyncDate := Some(value);
    }

    /** `get_worked_grids`: every grid some cached contact counts for. */
    method GetWorkedGrids() returns (all: set<string>)
      ensures forall g :: g in all <==> exists k :: k in qsoCache && g in ExtractGrids(qsoCache[k])
    {
      all := {};
      var rest := qsoCache.Keys;
      while rest != {}
        invariant rest <= qsoCache.Keys
        invariant forall g :: g in all <==> exists k :: k in qsoCache.Keys - rest && g in ExtractGrids(qsoCache[k])
        decreases |rest|
      {
        var k :| k in rest;
        all := all + ExtractGrids(qsoCache[k]);
        rest := rest - {k};
      }
    }

    /** `get_stats`: for each grid a cached contact counts for, how many
        cached contacts count for it and with which calls. */
    method GetStats() returns (stats: map<string, GridStats>)
      ensures forall g :: g in stats <==> Holders(qsoCache, qsoCache.Keys, g) != {}
      ensures forall g :: g in stats ==> stats[g] == StatsOf(qsoCache, qsoCache.Keys, g)
    {
      stats := map[];
      var done: set<string> := {};
      var rest := qsoCache.Keys;
      while rest != {}
        invariant done + rest == qsoCache.Keys && done !! rest
        invariant forall g :: g in stats <==> Holders(qsoCache, done, g) != {}
        invariant forall g :: g in stats ==> stats[g] == StatsOf(qsoCache, done, g)
        decreases |rest|
      {
        var k :| k in rest;
        stats := CountContact(stats, qsoCache, done, k);
        MoveOne(done, rest, qsoCache.Keys, k);
        done := done + {k};
        rest := rest - {k};
      }
    }

    /** `get_grid_labels`: each grid some confirmed cached contact counts
        for, labelled with the call of a confirmed contact for it that is
        latest in `(QSO_DATE, TIME_ON)` order. */
    method GetGridLabels() returns (labels: map<string, string>)
      ensures forall g :: g in labels <==> exists q :: q in qsoCache.Values && Candidate(q, g)
      ensures forall g :: g in labels ==>
        exists q :: Latest(qsoCache.Values, q, g) && labels[g] == Get(q, "CALL", "?")
    {
      ghost var keys;
      var listed;
      listed, keys := ListValues(qsoCache);
      var qsos := SortByTime(listed);
      SortByTimeCorrect(listed);
      labels := map[];
      for i := 0 to |qsos|
        invariant labels == LabelsOf(qsos[..i])
      {
        var qso := qsos[i];
        LabelsStep(qsos, i);
        if IsConfirmed(qso) {
          labels := AssignAll(labels, ExtractGrids(qso), Get(qso, "CALL", "?"));
        }
      }
      assert qsos[..|qsos|] == qsos;
      forall q
        ensures q in qsos <==> q in qsoCache.Values
      {
        assert q in qsos <==> q in multiset(qsos);
      }
      LabelsSpec(qsoCache.Values, qsos);
    }

    /** `merge_qsos`: stores the batch in the cache (last writer wins) and
        reports, sorted, the confirmed grids not known before, which join the
        known grids. `now` stands for the clock reading stored as `last_run`. */
    method MergeQsos(batch: seq<Qso>, now: string) returns (newGrids: seq<string>)
      modifies this
      ensures qsoCache == Overwrite(old(qsoCache), batch)
      ensures StrictlySorted(newGrids) && Elems(newGrids) == NewlyConfirmed(old(knownGrids), batch)
      ensures Elems(newGrids) !! Elems(old(knownGrids))
      ensures newGrids == [] ==> knownGrids == old(knownGrids)
      ensures newGrids != [] ==>
        StrictlySorted(knownGrids) && Elems(knownGrids) == Elems(old(knownGrids)) + Elems(newGrids)
      ensures lastRun == Some(now)
      ensures lastQsoDate == old(lastQsoDate) && lastSyncDate == old(lastSyncDate)
    {
      var currentConfirmed := Elems(knownGrids);
      var cache, newly := MergeBatch(qsoCache, batch, currentConfirmed);
      qsoCache := cache;
      if newly != {} {
        currentConfirmed := currentConfirmed + newly;
        knownGrids := SortedList(currentConfirmed);
      }
      lastRun := Some(now);
      newGrids := SortedList(newly);
      EmptyElems(newGrids);
    }
  }
}

=== FILE: text.dfy ===
/** Python string behaviour the monitor relies on: `str.isspace`/`strip`,
    ASCII `upper`/`lower`, slicing with clamping, `split` on one character,
    `find` and the code-point lexicographic order of `<=` on `str`. */
module Text {

  /** Python's `str.isspace()` for one character (the characters whose
      bidirectional type is WS, B or S, or whose category is Zs). */
  predicate IsSpace(c: char)
  {
    var n := c as int;
    (0x09 <= n <= 0x0D) || (0x1C <= n <= 0x20) || n == 0x85 || n == 0xA0 ||
    n == 0x1680 || (0x2000 <= n <= 0x200A) || n == 0x2028 || n == 0x2029 ||
    n == 0x202F || n == 0x205F || n == 0x3000
  }

  predicate IsLowerAscii(c: char) { 'a' <= c <= 'z' }
  predicate IsUpperAscii(c: char) { 'A' <= c <= 'Z' }
  predicate IsDigit(c: char) { '0' <= c <= '9' }

  function UpperChar(c: char): char
  {
    if IsLowerAscii(c) then (c as int - 32) as char else c
  }

  function LowerChar(c: char): char
  {
    if IsUpperAscii(c) then (c as int + 32) as char else c
  }

  /** `s.upper()` on ASCII letters. */
  function Upper(s: string): string
  {
    seq(|s|, i requires 0 <= i < |s| => UpperChar(s[i]))
  }

  /** `s.lower()` on ASCII letters. */
  function Lower(s: string): string
  {
    seq(|s|, i requires 0 <= i < |s| => LowerChar(s[i]))
  }

  /** No lower-case ASCII letter occurs in `s`. */
  predicate IsUpperCase(s: string)
  {
    forall i :: 0 <= i < |s| ==> !IsLowerAscii(s[i])
  }

  lemma UpperIsUpperCase(s: string)
    ensures IsUpperCase(Upper(s))
  {
  }

  lemma UpperIdempotent(s: string)
    ensures Upper(Upper(s)) == Upper(s)
  {
  }

  function TrimLeft(s: string): (r: string)
    ensures |r| <= |s|
    ensures r == [] || !IsSpace(r[0])
  {
    if s != [] && IsSpace(s[0]) then TrimLeft(s[1..]) else s
  }

  function TrimRight(s: string): (r: string)
    ensures |r| <= |s|
    ensures r == [] || !IsSpace(r[|r| - 1])
  {
    if s != [] && IsSpace(s[|s| - 1]) then TrimRight(s[..|s| - 1]) else s
  }

  /** `TrimLeft` keeps a suffix. */
  lemma {:induction false} TrimLeftSuffix(s: string)
    ensures TrimLeft(s) == s[|s| - |TrimLeft(s)|..]
  {
    if s != [] && IsSpace(s[0]) {
      TrimLeftSuffix(s[1..]);
    }
  }

  /** `TrimRight` keeps a prefix. */
  lemma {:induction false} TrimRightPrefix(s: string)
    ensures TrimRight(s) == s[..|TrimRight(s)|]
  {
    if s != [] && IsSpace(s[|s| - 1]) {
      TrimRightPrefix(s[..|s| - 1]);
    }
  }

  /** `TrimLeft` drops whitespace only. */
  lemma {:induction false} TrimLeftDropsSpaces(s: string)
    ensures forall i :: 0 <= i < |s| - |TrimLeft(s)| ==> IsSpace(s[i])
  {
    if s != [] && IsSpace(s[0]) {
      TrimLeftDropsSpaces(s[1..]);
    }
  }

  /** `TrimRight` drops whitespace only. */
  lemma {:induction false} TrimRightDropsSpaces(s: string)
    ensures forall i :: |TrimRight(s)| <= i < |s| ==> IsSpace(s[i])
  {
    if s != [] && IsSpace(s[|s| - 1]) {
      TrimRightDropsSpaces(s[..|s| - 1]);
    }
  }

  /** How many whitespace characters `strip` drops at the front of `s`. */
  function LeadingSpaces(s: string): (n: nat)
    ensures n <= |s|
  {
    |s| - |TrimLeft(s)|
  }

  /** `s.strip()`: the infix of `s` left after dropping whitespace at both
      ends; it neither starts nor ends with whitespace. */
  function Strip(s: string): (r: string)
    ensures LeadingSpaces(s) + |r| <= |s|
    ensures r == s[LeadingSpaces(s)..LeadingSpaces(s) + |r|]
    ensures r == [] || (!IsSpace(r[0]) && !IsSpace(r[|r| - 1]))
  {
    TrimLeftSuffix(s);
    TrimRightPrefix(TrimLeft(s));
    TrimRight(TrimLeft(s))
  }

  /** `strip` leaves alone a string that neither starts nor ends with
      whitespace. */
  lemma StripKeeps(s: string)
    requires s == [] || (!IsSpace(s[0]) && !IsSpace(s[|s| - 1]))
    ensures Strip(s) == s
  {
  }

  /** What `strip` drops on either side is whitespace. */
  lemma StripDropsSpaces(s: string)
    ensures forall k :: 0 <= k < LeadingSpaces(s) ==> IsSpace(s[k])
    ensures forall k :: LeadingSpaces(s) + |Strip(s)| <= k < |s| ==> IsSpace(s[k])
  {
    TrimLeftDropsSpaces(s);
    TrimLeftSuffix(s);
    var t := TrimLeft(s);
    TrimRightDropsSpaces(t);
    forall k | LeadingSpaces(s) + |Strip(s)| <= k < |s|
      ensures IsSpace(s[k])
    {
      assert s[k] == t[k - LeadingSpaces(s)];
    }
  }

  /** Whether `s` is all whitespace (Python: `not s.strip()`). */
  lemma StripEmptyIff(s: string)
    ensures Strip(s) == [] <==> forall k :: 0 <= k < |s| ==> IsSpace(s[k])
  {
    StripDropsSpaces(s);
    if Strip(s) != [] {
      assert s[LeadingSpaces(s)] == Strip(s)[0];
    }
  }

  /** Python's clamping slice `s[:n]`. */
  function Take(s: string, n: nat): (r: string)
    ensures |r| == if n <= |s| then n else |s|
    ensures r <= s
  {
    if n <= |s| then s[..n] else s
  }

  /** Python's clamping slice `s[a:b]` for `0 <= a`, `0 <= b`. */
  function Slice(s: string, a: nat, b: nat): (r: string)
    ensures a <= |s| ==> r == s[a..if b < a then a else if b <= |s| then b else |s|]
    ensures a > |s| ==> r == []
  {
    if a > |s| then []
    else if b < a then []
    else if b <= |s| then s[a..b]
    else s[a..]
  }

  predicate StartsWith(s: string, p: string)
  {
    |p| <= |s| && s[..|p|] == p
  }

  /** Python's `a <= b` on strings: code-point lexicographic order in which
      a proper prefix comes first. */
  predicate StrLe(a: string, b: string)
  {
    a == [] || (b != [] && (a[0] < b[0] || (a[0] == b[0] && StrLe(a[1..], b[1..]))))
  }

  lemma {:induction false} StrLeTotal(a: string, b: string)
    ensures StrLe(a, b) || StrLe(b, a)
  {
    if a != [] && b != [] && a[0] == b[0] {
      StrLeTotal(a[1..], b[1..]);
    }
  }

  lemma {:induction false} StrLeAntisymmetric(a: string, b: string)
    requires StrLe(a, b) && StrLe(b, a)
    ensures a == b
  {
    if a != [] && b != [] {
      StrLeAntisymmetric(a[1..], b[1..]);
      assert a == [a[0]] + a[1..];
      assert b == [b[0]] + b[1..];
    }
  }

  lemma {:induction false} StrLeTransitive(a: string, b: string, c: string)
    requires StrLe(a, b) && StrLe(b, c)
    ensures StrLe(a, c)
  {
    if a != [] && b != [] && c != [] && a[0] == b[0] && b[0] == c[0] {
      StrLeTransitive(a[1..], b[1..], c[1..]);
    }
  }

  lemma {:induction false} StrLeReflexive(a: string)
    ensures StrLe(a, a)
  {
    if a != [] {
      StrLeReflexive(a[1..]);
    }
  }

  lemma LowestPair(t: string)
    requires |t| == 2 && IsUpperAscii(t[0]) && IsUpperAscii(t[1])
    ensures StrLe(['A', 'A'], t)
  {
    assert ['A', 'A'][1..] == ['A'];
    assert StrLe(['A'], t[1..]);
  }

  lemma HighestPair(t: string)
    requires |t| == 2 && IsUpperAscii(t[0]) && IsUpperAscii(t[1])
    ensures StrLe(t, ['Z', 'Z'])
  {
    assert ['Z', 'Z'][1..] == ['Z'];
    assert t[1..][1..] == [];
    assert StrLe(t[1..], ['Z']);
  }

  /** For three-letter strings the inclusive range `lo + "AA"` .. `hi + "ZZ"`
      is exactly "first letter between `lo` and `hi`". */
  lemma ThreeLetterRange(s: string, lo: char, hi: char)
    requires |s| == 3 && forall i :: 0 <= i < 3 ==> IsUpperAscii(s[i])
    requires IsUpperAscii(lo) && IsUpperAscii(hi)
    ensures StrLe([lo, 'A', 'A'], s) && StrLe(s, [hi, 'Z', 'Z']) <==> lo <= s[0] <= hi
  {
    LowestPair(s[1..]);
    HighestPair(s[1..]);
    assert [lo, 'A', 'A'][1..] == ['A', 'A'];
    assert [hi, 'Z', 'Z'][1..] == ['Z', 'Z'];
  }

  /** Python's `s.split(sep)` for a one-character separator. */
  function SplitOn(s: string, sep: char): (r: seq<string>)
    ensures |r| >= 1
    ensures forall i :: 0 <= i < |r| ==> sep !in r[i]
    ensures JoinWith(r, sep) == s
    decreases |s|
  {
    if sep !in s then [s]
    else
      var i := IndexOfChar(s, sep);
      [s[..i]] + SplitOn(s[i + 1..], sep)
  }

  /** The inverse of `SplitOn`: `sep.join(parts)`. */
  function JoinWith(parts: seq<string>, sep: char): string
    requires |parts| >= 1
  {
    if |parts| == 1 then parts[0] else parts[0] + [sep] + JoinWith(parts[1..], sep)
  }

  /** Splitting at a first separator: the part before it comes first. */
  lemma SplitAtFirst(a: string, sep: char, rest: string)
    requires sep !in a
    ensures SplitOn(a + ([sep] + rest), sep) == [a] + SplitOn(rest, sep)
  {
    var s := a + ([sep] + rest);
    assert s[|a|] == sep;
    var i := IndexOfChar(s, sep);
    assert s[..i] == a;
    assert s[i + 1..] == rest;
  }

  /** `sep.join(parts).split(sep) == parts` when no part holds `sep`. */
  lemma {:induction false} SplitJoin(parts: seq<string>, sep: char)
    requires |parts| >= 1
    requires forall i :: 0 <= i < |parts| ==> sep !in parts[i]
    ensures SplitOn(JoinWith(parts, sep), sep) == parts
    decreases |parts|
  {
    if |parts| > 1 {
      var rest := JoinWith(parts[1..], sep);
      assert JoinWith(parts, sep) == parts[0] + ([sep] + rest);
      SplitAtFirst(parts[0], sep, rest);
      SplitJoin(parts[1..], sep);
      HeadTail(parts);
    }
  }

  /** A non-empty list is its head followed by its tail. */
  lemma HeadTail(parts: seq<string>)
    requires |parts| >= 1
    ensures [parts[0]] + parts[1..] == parts
  {
  }

  /** `upper` leaves alone a string with no lower-case letter. */
  lemma UpperKeeps(s: string)
    requires IsUpperCase(s)
    ensures Upper(s) == s
  {
  }

  /** The first index of `c` in `s`. */
  function IndexOfChar(s: string, c: char): (i: nat)
    requires c in s
    ensures i < |s| && s[i] == c && c !in s[..i]
  {
    if s[0] == c then 0 else IndexOfChar(s[1..], c) + 1
  }

  /** `s[i..i + |p|]` equals `p` once ASCII letters are lower-cased on the
      left, i.e. `s.lower()` holds `p` at `i` (for a lower-case `p`). */
  predicate OccursLowerAt(s: string, p: string, i: nat)
  {
    i + |p| <= |s| && Lower(s[i..i + |p|]) == p
  }

  /** `s.lower().find(p)`: the first index where `p` occurs, if any. */
  function FindLower(s: string, p: string, from: nat): (r: int)
    ensures r == -1 || (from <= r && OccursLowerAt(s, p, r))
    ensures r == -1 ==> forall k :: from <= k ==> !OccursLowerAt(s, p, k)
    ensures r != -1 ==> forall k :: from <= k < r ==> !OccursLowerAt(s, p, k)
    decreases |s| - from
  {
    if from + |p| > |s| then -1
    else if Lower(s[from..from + |p|]) == p then from
    else FindLower(s, p, from + 1)
  }
}

=== FILE: wab.dfy ===
/** The Worked All Brazil helper: the Brazilian state a grid square or a
    callsign belongs to. */
module Wab {
  import opened Wrappers
  import opened Text

  /** `GRID_TO_STATE`, written as five consecutive parts of the table in
      their order; `FJ92` is listed twice (AM, then RR) and, as in a Python
      dict literal, the later entry is the one kept (`+` on maps keeps the
      right-hand entry). Every key is a four-character locator and every
      state a federative unit. */
  function GridToState(): (r: map<string, string>)
    ensures EntriesKnown(r)
  {
    AcToDfKeys();
    AcToDfStates();
    EsToMgKeys();
    EsToMgStates();
    PaToRjKeys();
    PaToRjStates();
    RnToRoKeys();
    RnToRoStates();
    RrToToKeys();
    RrToToStates();
    UnionEntriesKnown(GridsAcToDf(), GridsEsToMg());
    UnionEntriesKnown(GridsAcToDf() + GridsEsToMg(), GridsPaToRj());
    UnionEntriesKnown(GridsAcToDf() + GridsEsToMg() + GridsPaToRj(), GridsRnToRo());
    UnionEntriesKnown(GridsAcToDf() + GridsEsToMg() + GridsPaToRj() + GridsRnToRo(), GridsRrToTo());
    GridsAcToDf() + GridsEsToMg() + GridsPaToRj() + GridsRnToRo() + GridsRrToTo()
  }

  /** The entries for the states AC to DF. */
  function GridsAcToDf(): map<string, string>
  {
    map[
      "FI60" := "AC", "FI61" := "AC",
      "HH20" := "AL",
      "GI90" := "AP", "GJ90" := "AP",
      "FI66" := "AM", "FJ92" := "AM", "GJ93" := "AM",
      "HH17" := "BA", "HH27" := "BA", "HH38" := "BA", "GH56" := "BA",
      "HK16" := "CE", "HI16" := "CE", "HI06" := "CE",
      "GH64" := "DF"
    ]
  }

  /** The entries for the states ES to MG. */
  function GridsEsToMg(): map<string, string>
  {
    map[
      "GG99" := "ES", "GH90" := "ES",
      "GH63" := "GO", "GH53" := "GO",
      "GI87" := "MA", "GI75" := "MA",
      "GH34" := "MT", "GH44" := "MT",
      "GH49" := "MS", "GH59" := "MS",
      "GH70" := "MG", "GH80" := "MG", "GH81" := "MG", "GH71" := "MG", "GG79" := "MG"
    ]
  }

  /** The entries for the states PA to RJ. */
  function GridsPaToRj(): map<string, string>
  {
    map[
      "GI98" := "PA", "GI88" := "PA", "GI89" := "PA",
      "HI22" := "PB", "HI23" := "PB",
      "GG54" := "PR", "GG44" := "PR", "GG64" := "PR",
      "HI21" := "PE", "HI11" := "PE", "HI31" := "PE",
      "GI84" := "PI", "GI74" := "PI",
      "GG87" := "RJ", "GG77" := "RJ", "GG88" := "RJ"
    ]
  }

  /** The entries for the states RN to RO. */
  function GridsRnToRo(): map<string, string>
  {
    map[
      "HI24" := "RN", "HI34" := "RN",
      "GG49" := "RS", "GG39" := "RS", "GG59" := "RS", "GF49" := "RS",
      "FI91" := "RO", "FJ91" := "RO"
    ]
  }

  /** The entries for the states RR to TO. */
  function GridsRrToTo(): map<string, string>
  {
    map[
      "FJ92" := "RR",
      "GG52" := "SC", "GG43" := "SC",
      "GG66" := "SP", "GG67" := "SP", "GG56" := "SP", "GG76" := "SP",
      "HH19" := "SE",
      "GH69" := "TO", "GI60" := "TO"
    ]
  }

  /** `get_all_states`: the 27 federative units. */
  function AllStates(): (r: seq<string>)
    ensures |r| == 27 && forall i, j :: 0 <= i < j < |r| ==> r[i] != r[j]
  {
    ["AC", "AL", "AP", "AM", "BA", "CE", "DF", "ES", "GO", "MA",
     "MT", "MS", "MG", "PA", "PB", "PR", "PE", "PI", "RJ", "RN",
     "RS", "RO", "RR", "SC", "SP", "SE", "TO"]
  }

  /** `get_state_from_grid`: `None` for a grid shorter than four characters
      (before stripping); otherwise the table entry of its first four
      characters, upper-cased and stripped, if there is one. */
  function GetStateFromGrid(grid: string): (r: Option<string>)
    ensures |grid| < 4 ==> r == None
    ensures r.Some? ==> Take(Strip(Upper(grid)), 4) in GridToState()
  {
    if |grid| < 4 then None
    else
      var key := Take(Strip(Upper(grid)), 4);
      if key in GridToState() then Some(GridToState()[key]) else None
  }

  /** A grid-table key: a four-character Maidenhead locator, two field
      letters and two square digits. */
  predicate KeyShape(k: string)
  {
    |k| == 4 && IsUpperAscii(k[0]) && IsUpperAscii(k[1]) && IsDigit(k[2]) && IsDigit(k[3])
  }

  /** One part of the table has well-formed keys and maps them to
      federative units. */
  predicate EntriesKnown(part: map<string, string>)
  {
    KeysShaped(part) && StatesKnown(part)
  }

  predicate KeysShaped(part: map<string, string>)
  {
    forall k :: k in part ==> KeyShape(k)
  }

  predicate StatesKnown(part: map<string, string>)
  {
    forall k :: k in part ==> part[k] in AllStates()
  }

  lemma UnionEntriesKnown(a: map<string, string>, b: map<string, string>)
    requires EntriesKnown(a) && EntriesKnown(b)
    ensures EntriesKnown(a + b)
  {
  }

  lemma AcToDfKeys() ensures KeysShaped(GridsAcToDf()) { }
  lemma AcToDfStates() ensures StatesKnown(GridsAcToDf()) { }
  lemma EsToMgKeys() ensures KeysShaped(GridsEsToMg()) { }
  lemma EsToMgStates() ensures StatesKnown(GridsEsToMg()) { }
  lemma PaToRjKeys() ensures KeysShaped(GridsPaToRj()) { }
  lemma PaToRjStates() ensures StatesKnown(GridsPaToRj()) { }
  lemma RnToRoKeys() ensures KeysShaped(GridsRnToRo()) { }
  lemma RnToRoStates() ensures StatesKnown(GridsRnToRo()) { }
  lemma RrToToKeys() ensures KeysShaped(GridsRrToTo()) { }
  lemma RrToToStates() ensures StatesKnown(GridsRrToTo()) { }


  /** On a key both sides hold, `+` keeps the right-hand entry. */
  lemma RightEntryKept(a: map<string, string>, b: map<string, string>, k: string)
    requires k in b
    ensures k in a + b && (a + b)[k] == b[k]
  {
  }

  lemma LaterEntryKept()
    ensures "FJ92" in GridToState() && GridToState()["FJ92"] == "RR"
  {
    assert "FJ92" in GridsRrToTo() && GridsRrToTo()["FJ92"] == "RR";
    RightEntryKept(GridsAcToDf() + GridsEsToMg() + GridsPaToRj() + GridsRnToRo(), GridsRrToTo(), "FJ92");
  }

  /** A grid that maps to a state maps to a federative unit. */
  lemma GridStateKnown(grid: string)
    ensures GetStateFromGrid(grid).Some? ==> GetStateFromGrid(grid).value in AllStates()
  {
    var t := GridToState();
  }

  /** The duplicated key resolves to the later entry. */
  lemma DuplicateGridResolved()
    ensures GetStateFromGrid("FJ92") == Some("RR")
  {
    assert Upper("FJ92") == "FJ92";
    StripKeeps("FJ92");
    assert Take("FJ92", 4) == "FJ92";
    LaterEntryKept();
  }

  /** The lookup ignores ASCII case. */
  lemma GridIgnoresCase(grid: string)
    ensures GetStateFromGrid(Upper(grid)) == GetStateFromGrid(grid)
  {
    UpperIdempotent(grid);
  }

  /** Every key of the table, looked up as a grid, finds its own entry. */
  lemma TableKeyFound(k: string)
    requires k in GridToState()
    ensures GetStateFromGrid(k) == Some(GridToState()[k])
  {
    TableKeyShape(k);
    LocatorLooksUpItself(k);
  }

  lemma TableKeyShape(k: string)
    requires k in GridToState()
    ensures KeyShape(k)
  {
  }

  /** A well-formed locator is its own lookup key. */
  lemma LocatorLooksUpItself(k: string)
    requires KeyShape(k)
    ensures Take(Strip(Upper(k)), 4) == k
  {
    assert Upper(k) == k;
    StripKeeps(k);
  }

  /** The two-letter prefixes of the Brazilian callsign blocks PPA-PYZ and
      ZVA-ZZZ. */
  function BrazilPrefixes(): set<string>
  {
    {"PP", "PQ", "PR", "PS", "PT", "PU", "PV", "PW", "PX", "PY", "ZV", "ZW", "ZX", "ZY", "ZZ"}
  }

  predicate IsBrazilian(c: string)
  {
    |c| >= 2 && c[..2] in BrazilPrefixes()
  }

  /** The end of the run of upper-case ASCII letters that starts at `i`. */
  function LetterRunEnd(s: string, i: nat): (j: nat)
    requires i <= |s|
    ensures i <= j <= |s|
    decreases |s| - i
  {
    if i < |s| && IsUpperAscii(s[i]) then LetterRunEnd(s, i + 1) else i
  }

  /** The run is maximal: letters up to its end, no letter at its end. */
  lemma {:induction false} LetterRunEndIs(s: string, i: nat)
    requires i <= |s|
    ensures forall k :: i <= k < LetterRunEnd(s, i) ==> IsUpperAscii(s[k])
    ensures LetterRunEnd(s, i) == |s| || !IsUpperAscii(s[LetterRunEnd(s, i)])
    decreases |s| - i
  {
    if i < |s| && IsUpperAscii(s[i]) {
      LetterRunEndIs(s, i + 1);
    }
  }

  /** A callsign split as prefix letters, region digit and suffix letters. */
  datatype CallParts = CallParts(prefix: string, region: nat, suffix: string)

  /** `re.match(r'^([A-Z]{2})([0-9])([A-Z]+)', c)`: two letters, one digit
      and the longest run of letters after it, of at least one letter. */
  function ParseCall(c: string): (r: Option<CallParts>)
    ensures r.Some? <==> |c| >= 4 && IsUpperAscii(c[0]) && IsUpperAscii(c[1]) && IsDigit(c[2]) && IsUpperAscii(c[3])
    ensures r.Some? ==> WellFormedParts(r.value)
  {
    if |c| >= 4 && IsUpperAscii(c[0]) && IsUpperAscii(c[1]) && IsDigit(c[2]) && IsUpperAscii(c[3])
    then
      LetterRunEndIs(c, 3);
      Some(CallParts(c[..2], c[2] as int - '0' as int, c[3..LetterRunEnd(c, 3)]))
    else None
  }

  /** A well-formed parse: two letters, a region 0-9, a non-empty suffix of
      letters. */
  predicate WellFormedParts(p: CallParts)
  {
    |p.prefix| == 2 && IsUpperAscii(p.prefix[0]) && IsUpperAscii(p.prefix[1]) && p.region <= 9 &&
    |p.suffix| >= 1 && forall k :: 0 <= k < |p.suffix| ==> IsUpperAscii(p.suffix[k])
  }

  /** The text a parse was read from. */
  function CallText(p: CallParts): string
    requires p.region <= 9
  {
    p.prefix + [('0' as int + p.region) as char] + p.suffix
  }

  /** What the parse returns is well formed and is a prefix of the callsign
      that ends where the letters end. */
  lemma ParseCallSound(c: string)
    requires ParseCall(c).Some?
    ensures WellFormedParts(ParseCall(c).value)
    ensures StartsWith(c, CallText(ParseCall(c).value))
    ensures var n := |CallText(ParseCall(c).value)|; n == |c| || !IsUpperAscii(c[n])
  {
    LetterRunEndIs(c, 3);
    var p := ParseCall(c).value;
    assert CallText(p) == c[..LetterRunEnd(c, 3)];
  }

  /** Characters after the suffix are ignored: a well-formed callsign
      followed by anything that does not begin with a letter parses back
      to its parts. */
  lemma ParseCallRoundTrip(p: CallParts, rest: string)
    requires WellFormedParts(p)
    requires rest == [] || !IsUpperAscii(rest[0])
    ensures ParseCall(CallText(p) + rest) == Some(p)
  {
    var c := CallText(p) + rest;
    var n := |CallText(p)|;
    assert forall k :: 3 <= k < n ==> c[k] == p.suffix[k - 3];
    LetterRunEndFrom(c, 3, n);
    assert c[..2] == p.prefix;
    assert c[3..n] == p.suffix;
  }

  lemma {:induction false} LetterRunEndFrom(s: string, i: nat, n: nat)
    requires i <= n <= |s|
    requires forall k :: i <= k < n ==> IsUpperAscii(s[k])
    requires n == |s| || !IsUpperAscii(s[n])
    ensures LetterRunEnd(s, i) == n
    decreases n - i
  {
    if i < n {
      LetterRunEndFrom(s, i + 1, n);
    }
  }

  /** Python's `lo <= suf <= hi` on strings. */
  predicate InRange(suf: string, lo: string, hi: string)
  {
    StrLe(lo, suf) && StrLe(suf, hi)
  }

  /** `suf.startswith(letters)` for one-letter prefixes. */
  predicate StartsWithOneOf(suf: string, letters: set<char>)
  {
    |suf| >= 1 && suf[0] in letters
  }

  /** The region rules: which state a prefix, region and suffix select.
      Every region digit selects one, and nothing else does. */
  function RegionState(p: CallParts): (r: Option<string>)
    ensures r.Some? <==> p.region <= 9
  {
    var pfx, reg, suf := p.prefix, p.region, p.suffix;
    if reg == 1 then
      Some(if pfx == "PP" then "ES"
           else if pfx == "PY" then "RJ"
           else if pfx == "PU" then (if InRange(suf, "AAA", "IZZ") then "ES" else "RJ")
           else "RJ")
    else if reg == 2 then
      Some(if pfx == "PQ" then "TO"
           else if pfx == "PT" then "DF"
           else if pfx == "PP" then "GO"
           else if pfx == "PY" then "SP"
           else if pfx == "PU" then
             (if InRange(suf, "AAA", "EZZ") then "DF"
              else if InRange(suf, "FAA", "HZZ") then "GO"
              else "SP")
           else "SP")
    else if reg == 3 then Some("RS")
    else if reg == 4 then Some("MG")
    else if reg == 5 then
      Some(if pfx == "PP" then "SC"
           else if pfx == "PY" then "PR"
           else if pfx == "PU" then (if InRange(suf, "AAA", "LZZ") then "SC" else "PR")
           else "PR")
    else if reg == 6 then
      Some(if pfx == "PP" then "SE"
           else if pfx == "PY" then "BA"
           else if pfx == "PU" then (if InRange(suf, "AAA", "IZZ") then "SE" else "BA")
           else "BA")
    else if reg == 7 then
      Some(if pfx == "PP" then "AL"
           else if pfx == "PT" then "CE"
           else if pfx == "PR" then "PB"
           else if pfx == "PY" then "PE"
           else if pfx == "PS" then "RN"
           else if pfx == "PU" && StartsWithOneOf(suf, {'A', 'B', 'C', 'D'}) then "AL"
           else if pfx == "PU" && StartsWithOneOf(suf, {'E', 'F', 'G', 'H'}) then "PB"
           else if pfx == "PU" && StartsWithOneOf(suf, {'M', 'N', 'O', 'P'}) then "CE"
           else if pfx == "PU" && StartsWithOneOf(suf, {'R'}) then "PE"
           else if pfx == "PU" && StartsWithOneOf(suf, {'S'}) then "RN"
           else "PE")
    else if reg == 8 then
      Some(if pfx == "PT" then "AC"
           else if pfx == "PQ" then "AP"
           else if pfx == "PP" then "AM"
           else if pfx == "PR" then "MA"
           else if pfx == "PY" then "PA"
           else if pfx == "PS" then "PI"
           else if pfx == "PW" then "RO"
           else if pfx == "PV" then "RR"
           else if pfx == "PU" && InRange(suf, "AAA", "CZZ") then "AM"
           else if pfx == "PU" && InRange(suf, "DAA", "FZZ") then "RR"
           else if pfx == "PU" && InRange(suf, "GAA", "IZZ") then "AP"
           else if pfx == "PU" && InRange(suf, "JAA", "LZZ") then "AC"
           else if pfx == "PU" && InRange(suf, "MAA", "OZZ") then "MA"
           else if pfx == "PU" && InRange(suf, "PAA", "SZZ") then "PI"
           else if pfx == "PU" && InRange(suf, "TAA", "VZZ") then "RO"
           else if pfx == "PU" && InRange(suf, "WAA", "YZZ") then "PA"
           else "AM")
    else if reg == 9 then
      Some(if pfx == "PY" then "MT"
           else if pfx == "PT" then "MS"
           else if pfx == "PU" && InRange(suf, "AAA", "NZZ") then "MS"
           else if pfx == "PU" && InRange(suf, "OAA", "YZZ") then "MT"
           else "MT")
    else if reg == 0 then
      Some(if StartsWithOneOf(suf, {'F'}) then "PE"
           else if StartsWithOneOf(suf, {'T'}) then "ES"
           else "PE")
    else None
  }

  /** `get_state_from_call`: a callsign gets a state exactly when, once
      upper-cased and stripped, it has a Brazilian prefix and parses, and
      that state is a federative unit. */
  function GetStateFromCall(call: string): (r: Option<string>)
    ensures r.Some? <==> IsBrazilian(Strip(Upper(call))) && ParseCall(Strip(Upper(call))).Some?
    ensures r.Some? ==> r.value in AllStates()
  {
    var c := Strip(Upper(call));
    if !IsBrazilian(c) then None
    else match ParseCall(c)
      case None => None
      case Some(p) => RegionStateKnown(p); RegionState(p)
  }

  /** Every region digit selects a federative unit. */
  lemma RegionStateKnown(p: CallParts)
    requires p.region <= 9
    ensures RegionState(p).value in AllStates()
  {
  }

  /** The classification ignores ASCII case. */
  lemma CallIgnoresCase(call: string)
    ensures GetStateFromCall(Upper(call)) == GetStateFromCall(call)
  {
    UpperIdempotent(call);
  }

  /** For a three-letter suffix, `PU1` gives ES exactly for first letters
      A-I, and RJ otherwise. */
  lemma Pu1ByFirstLetter(suf: string)
    requires |suf| == 3 && forall i :: 0 <= i < 3 ==> IsUpperAscii(suf[i])
    ensures RegionState(CallParts("PU", 1, suf)) == Some(if 'A' <= suf[0] <= 'I' then "ES" else "RJ")
  {
    ThreeLetterRange(suf, 'A', 'I');
  }

  /** For a three-letter suffix, `PU5` gives SC exactly for first letters
      A-L, and PR otherwise. */
  lemma Pu5ByFirstLetter(suf: string)
    requires |suf| == 3 && forall i :: 0 <= i < 3 ==> IsUpperAscii(suf[i])
    ensures RegionState(CallParts("PU", 5, suf)) == Some(if 'A' <= suf[0] <= 'L' then "SC" else "PR")
  {
    ThreeLetterRange(suf, 'A', 'L');
  }

  /** The ranges compare whole strings, so a suffix that is a proper
      prefix of the lower bound (`A`, `AA`) falls below `AAA`: `PU1AA` is
      RJ although `A` lies in A-I. Any other short suffix compares on its
      letters: `PU1B` is ES. */
  lemma ShortSuffixBelowRange()
    ensures RegionState(CallParts("PU", 1, "AA")) == Some("RJ")
    ensures RegionState(CallParts("PU", 1, "B")) == Some("ES")
  {
    assert !StrLe("AAA", "AA") by {
      assert "AAA"[1..] == "AA" && "AA"[1..] == "A";
      assert "AA"[1..][1..] == [];
    }
    assert StrLe("AAA", "B") && StrLe("B", "IZZ");
  }

  /** The whole classification of `pu1aa`: upper-cased, parsed as `PU`,
      region 1, suffix `AA`, and placed in RJ. */
  lemma ShortSuffixCall()
    ensures GetStateFromCall("pu1aa") == Some("RJ")
  {
    assert Upper("pu1aa") == "PU1AA";
    StripKeeps("PU1AA");
    LetterRunEndFrom("PU1AA", 3, 5);
    assert "PU1AA"[..2] == "PU" && "PU1AA"[3..5] == "AA";
    assert ParseCall("PU1AA") == Some(CallParts("PU", 1, "AA"));
    ShortSuffixBelowRange();
  }

  /** Regions 3 and 4 ignore the prefix and the suffix. */
  lemma SingleStateRegions(pfx: string, suf: string)
    ensures RegionState(CallParts(pfx, 3, suf)) == Some("RS")
    ensures RegionState(CallParts(pfx, 4, suf)) == Some("MG")
  {
  }

  /** Region 0 (the islands): F gives PE, T gives ES, anything else PE. */
  lemma IslandRegion(pfx: string, suf: string)
    ensures RegionState(CallParts(pfx, 0, suf)) ==
      Some(if |suf| >= 1 && suf[0] == 'T' then "ES" else "PE")
  {
  }

  /** The fall-through defaults for `PU`, for a suffix of any length:
      region 7 outside A-H, M-P, R, S gives PE; region 8 with a suffix
      from Z gives AM; region 9 with a suffix from Z gives MT (a suffix
      from Z sorts above every upper bound of the ranges). */
  lemma PuDefaults(suf: string)
    requires |suf| >= 1
    ensures suf[0] !in {'A', 'B', 'C', 'D', 'E', 'F', 'G', 'H', 'M', 'N', 'O', 'P', 'R', 'S'} ==>
      RegionState(CallParts("PU", 7, suf)) == Some("PE")
    ensures suf[0] == 'Z' ==> RegionState(CallParts("PU", 8, suf)) == Some("AM")
    ensures suf[0] == 'Z' ==> RegionState(CallParts("PU", 9, suf)) == Some("MT")
  {
    if suf[0] == 'Z' {
      assert !StrLe(suf, "CZZ") && !StrLe(suf, "FZZ") && !StrLe(suf, "IZZ") && !StrLe(suf, "LZZ");
      assert !StrLe(suf, "OZZ") && !StrLe(suf, "SZZ") && !StrLe(suf, "VZZ") && !StrLe(suf, "YZZ");
      assert !StrLe(suf, "NZZ");
    }
  }
}

=== FILE: wrappers.dfy ===
/** Optional values and results with an error, for the places where the
    monitor returns `None` or raises. */
module Wrappers {

  datatype Option<+T> = None | Some(value: T)

  datatype Result<+T, +E> = Ok(value: T) | Err(error: E)
}
